=== FILE: README.md ===
# PracticumTask shell, modelled in Dafny

PracticumTask is a small interactive command shell. A typed line is split into
a command name and arguments. The name picks a command class (a "library") and
one of its public static methods. The arguments are checked against the
method's parameter types, and the method is invoked. The one built-in command,
`DefaultCommands.CountWords`, fetches a page, extracts its viewable text and
reports how often each word occurs.

This project models that core as pure functions over immutable data and proves
what it promises:

- `wrappers.dfy` (`Wrappers`): `Option` and `Result`.
- `strings.dfy` (`Strings`): the shared text operations.
  - ASCII case folding and the .NET white-space set.
  - `String.Split` on a set of separator characters, and joining.
  - Line-by-line text, decimal rendering, and the code-point string order.
- `console_command.dfy` (`ConsoleCommand`): the `ConsoleCommand` constructor.
  - The quote-aware split of the line: `Tokenize`, defined exactly as the regular expression behaves.
  - A one-pass scan `Cut`, proved equal to `Tokenize`.
  - The library/command split of the first token.
  - Unquoting of the argument tokens.
- `registry.dfy` (`Registry`): the registry `Main` builds.
  - Library name → method name → ordered parameter list, with both dictionaries case-insensitive.
  - Building it fails on a duplicate key.
  - Case-insensitive lookup.
- `dispatcher.dfy` (`Dispatcher`): `Execute`, `CoerceArgument` and `TryOrThrow`. Outcomes are `Result<Reply, Fault>`.
  - A `Reply` is a string `Execute` returns. That covers the output of the method, and the unknown-library, unknown-command and missing-argument messages.
  - A `Fault` is an exception that leaves `Execute`. The shell loop prints these instead: coercion failure, index out of range, a null result, or the method's own exception.
- `help.dfy` (`Help`): the signature block `PrintHelpMessage` builds for each command.
- `text_extraction.dfy` (`TextExtraction`): `ExtractViewableText` and `AppendNodeText` over an abstract document tree.
- `word_tally.dfy` (`WordTally`): the counting part of `CountWords`, from the decoded text to the returned report.

Three things the shell calls into become parameters:

- the `TryParse` grammars become `parses(typeCode, text)`;
- the reflective invocation of the resolved method becomes `invoke(library, method, values)`;
- the fetch, document parser and entity decoder of `CountWords` become `fetched`, `load` and `decode`.

## Behaviour as written

The model follows the code, including where its behaviour may surprise a user of the shell:

- **Extra arguments throw.** Suppose a method has at least one parameter and is given more arguments than it has parameters. Then `paramInfoList.ElementAt(i)` throws at the first surplus index, and this happens outside the `try` (PracticumTask/Program.cs:127-129). So once every earlier argument coerces, the call fails with `ArgumentIndexOutOfRange`; otherwise the first coercion failure is reported. The surplus arguments are never ignored.
- **Parsed values are dropped.** `CoerceArgument` validates every non-string argument with `TryParse` and then discards the parsed local. The slot therefore receives `null` (PracticumTask/Program.cs:187-243), and this replaces any default value (PracticumTask/Program.cs:133-134). `Dispatcher.DefaultingAsWritten` shows this on `f(a: Int32, b: Int32 = 10)`.
- **Unsupported types get the parse message.** An argument of a type code that `CoerceArgument` does not handle throws inside the `try`. It is reported with the same "cannot be parsed" message as a failed parse.
- **A method that returns null fails.** `result.ToString()` on a null result throws (`NullResult`). This includes every `void` method.

## Model

| member | source | states |
|---|---|---|
| ConsoleCommand.Tokenize | PracticumTask/ConsoleCommand.cs:17 | The pieces of the line between its delimiter spaces, in order: there is always at least one, and a line without a delimiter space is the single token of the whole line. |
| ConsoleCommand.TokenizeByScan | PracticumTask/ConsoleCommand.cs:17 | The split where a space is a delimiter iff the quote counts before and after it are both even equals a scan that splits at spaces outside quoted spans. A line with an odd number of quotes is not split at all. |
| ConsoleCommand.TokenizeThenJoin | PracticumTask/ConsoleCommand.cs:17 | Joining the tokens with single spaces gives the input line back. So consecutive spaces produce empty tokens, and those are kept. |
| ConsoleCommand.JoinThenTokenize | PracticumTask/ConsoleCommand.cs:17 | Tokens that are each atomic and have an even number of quotes are recovered, in order, from their space-joined line. |
| ConsoleCommand.TokenizeConcat | PracticumTask/ConsoleCommand.cs:17 | Two texts with even quote counts, joined by a space, tokenize to the tokens of the first followed by those of the second. |
| ConsoleCommand.ThreeTokens | PracticumTask/ConsoleCommand.cs:17 | A bare word, a quoted span holding any spaces, and a bare word, separated by single spaces, are exactly three tokens. |
| ConsoleCommand.QuotedSpanIsOneToken | PracticumTask/ConsoleCommand.cs:17 | A quoted span is a single token, whatever spaces it contains. |
| ConsoleCommand.SplitName | PracticumTask/ConsoleCommand.cs:20-30 | A token with exactly one dot gives the dot-free library and command around it. Any other token gives the default library with the whole token as the name, so `a.b.c` stays one name. |
| ConsoleCommand.UnquoteQuoted | PracticumTask/ConsoleCommand.cs:37-46 | A token `pre"c"post` with no quote in `pre` or `c` becomes `c`, and the text outside the span is dropped. If `c` is empty, construction fails. |
| ConsoleCommand.FirstQuotedSpan | PracticumTask/ConsoleCommand.cs:37-40 | The lazy `"(.*?)"` finds a match iff the token holds at least two quotes, and what it captures between them holds no quote. |
| ConsoleCommand.Unquote | PracticumTask/ConsoleCommand.cs:37-51 | A token with fewer than two quotes is kept verbatim. Only a token with two or more quotes can fail, and when it succeeds its result is non-empty and quote-free. |
| ConsoleCommand.UnquoteAll | PracticumTask/ConsoleCommand.cs:32-53 | Arguments are unquoted in input order, one per token. The first token that fails decides the failure and its position, and every token before it succeeded. |
| ConsoleCommand.Parse | PracticumTask/ConsoleCommand.cs:14-54 | The line succeeds iff every argument token unquotes. Then the library and name come from the first token, which is never unquoted. The arguments are the unquoted remaining tokens in order, one fewer than the tokens. |
| ConsoleCommand.OddQuotesWholeLine | PracticumTask/ConsoleCommand.cs:17-32 | A line with an odd number of quotes is one name token with no arguments. |
| ConsoleCommand.GreetExample | PracticumTask/ConsoleCommand.cs:14-54 | `greet "New York" 5` is command `greet` of `DefaultCommands` with the arguments `New York` and `5`. |
| ConsoleCommand.GreetTokens | PracticumTask/ConsoleCommand.cs:17 | `greet "New York" 5` has the three tokens `greet`, `"New York"` and `5`. |
| Registry.Build | PracticumTask/Program.cs:22-41 | Building succeeds iff the library names are distinct ignoring case and so are the method names within each library. The registry built is then exactly the discovered classes. |
| Registry.Find | PracticumTask/Program.cs:84-97 | The lookup finds the first key equal to the name ignoring case. It finds nothing iff no key matches. |
| Registry.FindUnique | PracticumTask/Program.cs:84-97 | In a dictionary whose keys are distinct ignoring case, any key equal to the name ignoring case is the one found. |
| Registry.FindIgnoresCase | PracticumTask/Program.cs:84-97 | Two spellings that differ only in case find the same entry. |
| Dispatcher.Reply.Text | PracticumTask/Program.cs:84-109 | Method output is printed as it is. The composed replies are `Unrecognized library '<l>'.`, `Unrecognized command '<l>.<c>'.` and `Missing required argument. <r> required, <o> optional, <p> provided`, with the counts in decimal. |
| Dispatcher.ReplyKindsDistinct | PracticumTask/Program.cs:84-109 | Two composed replies with the same text are of the same kind, and two unknown-library replies with the same text name the same library. |
| Dispatcher.Fault.Message | PracticumTask/Program.cs:136-165 | A coercion fault reads `The value passed for argument '<parameter>' cannot be parsed to type '<type>'`. The method's own exception keeps its message. The runtime faults have no composed message. |
| Dispatcher.TryOrThrow | PracticumTask/Program.cs:168-174 | Succeeds iff the check passed; otherwise fails with the given message. |
| Dispatcher.CoerceArgument | PracticumTask/Program.cs:176-244 | Succeeds iff the type code is `String`, or is one of the 13 parsed codes and the text parses. On success the result is the text for `String` and null otherwise. On failure it gives the "Cannnot coerce" message. |
| Dispatcher.BindFrom | PracticumTask/Program.cs:127-141 | From argument `i` on: succeeds iff every later argument has a parameter that accepts it. Each argument fills its own slot and no other, and the other slots are unchanged. Otherwise it fails with the fault of the first argument that cannot be bound. |
| Dispatcher.Materialize | PracticumTask/Program.cs:111-141 | Succeeds iff there are no more arguments than parameters and each argument coerces. Then there is one slot per parameter: coerced arguments first, seeds (default or null) after. Otherwise it fails at the first argument without a parameter or whose coercion fails. |
| Dispatcher.RequiredCount | PracticumTask/Program.cs:102-103 | Required and optional parameters together make up the whole parameter list. |
| Dispatcher.Resolve | PracticumTask/Program.cs:84-97 | Finds a library and a method matching ignoring case. The unknown-library reply, which names the library as typed, comes iff no library matches. The unknown-command reply names the registered library and the command as typed, and comes only when no method of that library matches. |
| Dispatcher.Complete | PracticumTask/Program.cs:156-165 | Only a returned object becomes output. A null result, which includes every `void` method, fails with `NullResult`: the runtime's null-reference exception from `result.ToString()`, not an exception of the method. The method's own exception is rethrown as it is. |
| Dispatcher.Execute | PracticumTask/Program.cs:80-109 | A resolution miss is returned as a reply. Once the command resolves, the missing-argument reply comes iff more parameters are required than arguments given. |
| Dispatcher.ExecuteInvokes | PracticumTask/Program.cs:111-160 | With enough arguments that all bind, the method is invoked under its registered names. It receives one slot per parameter: coerced arguments, then seeds. |
| Dispatcher.ZeroParametersIgnoreArguments | PracticumTask/Program.cs:111-160 | A command without parameters ignores any arguments and is invoked with none. |
| Dispatcher.ExtraArgumentsThrow | PracticumTask/Program.cs:127-141 | A command with parameters that gets more arguments than parameters throws before any invocation. It throws at index one past the last parameter when all the others coerce. |
| Dispatcher.CoercionFailureAborts | PracticumTask/Program.cs:130-140 | The first argument that fails coercion aborts with the fault naming that parameter and its type. The method is never invoked. |
| Dispatcher.ExecuteIgnoresCase | PracticumTask/Program.cs:84-97 | Once the command resolves, library and command names that differ only in case give the same outcome. (An unresolved name is echoed as typed, so the miss replies differ in case.) |
| Dispatcher.MissingArgumentCounts | PracticumTask/Program.cs:102-109 | A missing-argument reply reports more required parameters than the arguments provided. Its required and optional counts add up to the parameter count. |
| Dispatcher.DefaultingAsWritten | PracticumTask/Program.cs:115-141 | For `f(a: Int32, b: Int32 = 10)`, `f 5` invokes with `[null, 10]` and `f 5 20` invokes with `[null, null]`. |
| Help.Usage | PracticumTask/Program.cs:253-266 | The usage line is `command: ` followed by the displayed name and one `<name>` placeholder per parameter in order, separated by single spaces. |
| Help.ParameterLine | PracticumTask/Program.cs:267-270 | A description line is `parameter <name>: type = <full type name>; `, followed by `optional` exactly when the parameter is optional and by nothing otherwise. |
| Help.Signature | PracticumTask/Program.cs:253-271 | A signature starts with `command: ` and ends with a newline. |
| Help.SignatureLines | PracticumTask/Program.cs:253-271 | Split at newlines, a signature is the usage line, then one description line per parameter in order, then nothing. |
| Help.DisplayedNameSplits | PracticumTask/Program.cs:254-261 | The name shown (bare in `DefaultCommands`, otherwise `library.command`) splits back into the library and the command. |
| Help.UsageParses | PracticumTask/Program.cs:253-266 | The usage line after `command: ` parses to the listed command, with one placeholder argument per parameter in order. |
| Help.ListedCommandResolves | PracticumTask/Program.cs:84-97 | In a registry with distinct names, the registered names of a listed command resolve to that command. |
| Help.UsageRoundTrip | PracticumTask/Program.cs:248-266 | Every usage line of a registry with plain names, typed back in, reaches the listed method with as many arguments as it has parameters. |
| TextExtraction.Viewable | PracticumTask/Commands.cs:86-102 | A `script` or `style` subtree adds nothing. What any subtree adds is empty or ends in a break character. |
| TextExtraction.ExtractViewableText | PracticumTask/Commands.cs:79-102 | A hidden root gives the empty text. Any other result is empty or ends in a break character, so a word never runs on into the next text node. |
| TextExtraction.AppendedText | PracticumTask/Commands.cs:104-119 | Blank text adds nothing. Other text is added as it is when it already ends in tab, newline, space or carriage return, and followed by one space otherwise. |
| TextExtraction.ViewableIsVisibleTexts | PracticumTask/Commands.cs:86-102 | The extracted text is the pieces of the visible text nodes, in pre-order, one after the other. |
| TextExtraction.NoHiddenShowsAll | PracticumTask/Commands.cs:86-102 | In a tree without `script` or `style` nodes, every text node is visible. |
| TextExtraction.HiddenChildIgnored | PracticumTask/Commands.cs:88-101 | Replacing a `script` or `style` child with any other such subtree leaves the extracted text unchanged. |
| WordTally.Keep | PracticumTask/Commands.cs:51-58 | Every kept word is non-blank and already lower-cased. If the pieces have no separators, neither do the words. |
| WordTally.KeepNonBlank | PracticumTask/Commands.cs:51-58 | Pieces that are all non-blank are all kept, each lower-cased, in order. |
| WordTally.Words | PracticumTask/Commands.cs:48-58 | The words of a text are non-blank, lower-cased and free of the 18 separators. |
| WordTally.WordsOfPiece | PracticumTask/Commands.cs:48-58 | A text without separators holds no word when it is blank, and otherwise exactly one word: itself, lower-cased. |
| WordTally.WordsOfSeparator | PracticumTask/Commands.cs:48-56 | A separator on its own holds no word. |
| WordTally.WordsOfJoin | PracticumTask/Commands.cs:48-58 | Non-blank, separator-free words written with a separator between them are counted back one by one, lower-cased, in order. |
| WordTally.WordsAppend | PracticumTask/Commands.cs:48-58 | Text ending in a separator never fuses a word with what follows. |
| WordTally.AppendedTextWords | PracticumTask/Commands.cs:104-119 | What is appended for a text node holds exactly the words of that text. |
| WordTally.WordsOfViewable | PracticumTask/Commands.cs:44-58 | Before decoding, the words of the extracted text are the words of the visible text nodes, node by node, in document order. |
| WordTally.WordsIgnoreCase | PracticumTask/Commands.cs:58-67 | Texts that differ only in case have the same words, so they share counters. |
| WordTally.Insert | PracticumTask/Commands.cs:60-67 | One loop step adds one to the counter of the word only, adds no key other than the word, and keeps every counter at least 1. |
| WordTally.InsertSorted | PracticumTask/Commands.cs:49-67 | A loop step keeps the keys in strictly ascending order. |
| WordTally.Tally | PracticumTask/Commands.cs:49-68 | Each counter is at least 1 and equals the number of occurrences of its key. The counters sum to the number of words, and every key is one of the words. |
| WordTally.TallySorted | PracticumTask/Commands.cs:49-68 | The finished dictionary has strictly ascending keys, each key once. |
| WordTally.Render | PracticumTask/Commands.cs:70-76 | The report is empty iff the dictionary is. |
| WordTally.ReportRoundTrip | PracticumTask/Commands.cs:70-76 | The report has one `key - count` line per entry, in order. Each line reads back as its entry, and the report ends with a newline. |
| WordTally.CountWordsText | PracticumTask/Commands.cs:48-76 | The report is empty iff the text has no words. |
| WordTally.CountWordsReport | PracticumTask/Commands.cs:48-76 | The report lists every distinct word once, in ascending order, with its number of occurrences (at least 1). |
| WordTally.CountWords | PracticumTask/Commands.cs:15-76 | A failed fetch returns its error message. Otherwise the report is empty iff the decoded viewable text has no words. |

## Left out

- Reflection: discovering command classes and methods (PracticumTask/Program.cs:25-33) is replaced by the list of `Library` values given to `Registry.Build`. `InvokeMember` becomes the parameter `invoke`.
- The console loop: `Run`, `ReadFromConsole`, `WriteToConsole` and the printing in `PrintHelpMessage`. This includes the order in which the dictionaries enumerate their entries. For a line equal to `help` ignoring case, `Run` prints the help and then still passes the line to `Execute` (PracticumTask/Program.cs:62-70). Unless such a method exists, `Execute` answers `Unrecognized command 'DefaultCommands.<the line as typed>'.`, for example `Unrecognized command 'DefaultCommands.HELP'.`.
- The grammars of `Int32.TryParse`, `DateTime.TryParse` and the other parsers: they are culture-dependent and involve floating point. They are the abstract predicate `parses`.
- The runtime's own exception messages: index out of range, null reference, and a second match in `Single`. `Dispatcher.Fault.Message` gives only the messages the shell composes itself.
- Culture-sensitive behaviour is replaced by code-point or ASCII equivalents:
  - `ToLower` and `StringComparer.InvariantCultureIgnoreCase` become ASCII lower-casing.
  - The default comparer of `SortedDictionary<string, uint>` is culture-sensitive. It becomes lexicographic order by Unicode code point, which changes the order of the report lines. It also has a visible consequence for the counts. Under the culture comparer, distinct words can compare equal and share one counter, for example `ab` and `a` U+00AD `b` (with a soft hyphen). The model never merges distinct words.
  - `string.EndsWith(string)` in `AppendNodeText` (PracticumTask/Commands.cs:115) compares with the current culture, which ignores some code points such as the soft hyphen. The model tests the last character only.
- From `CountWords`:
  - `HttpClient` is replaced by the fetch outcome `fetched`. Its `Failure` models only a non-success status code, the exception `EnsureSuccessStatusCode` throws (PracticumTask/Commands.cs:25). Failures of `GetAsync(url).Result` and `ReadAsStringAsync().Result` (lines 24 and 26) arrive wrapped in an `AggregateException`, escape the `catch`, and are not modelled.
  - The file written to `outputFilePath` is not modelled. When writing succeeds it does not affect the returned report. When the `StreamWriter` fails (PracticumTask/Commands.cs:35, for example a bad path or no permission), `CountWords` throws and returns no report; that error path is not modelled.
  - HtmlAgilityPack parsing becomes `load`.
  - `HttpUtility.HtmlDecode` becomes `decode`.
- WordTally.Tally: counters are unbounded naturals rather than `uint`. A .NET string is shorter than 2^31 characters, so a counter can never reach the `uint` limit.
- Dispatcher.Resolve: it takes the first case-insensitive match, where the source's `Single` would throw on a second one. A registry that `Registry.Build` accepts never has a second match.

=== FILE: console_command.dfy ===
/**
  The `ConsoleCommand` constructor: one raw input line becomes a library
  name, a command name and an ordered list of arguments.

  The line is split with a regular expression whose lookbehind and lookahead
  make a space a delimiter exactly when the text before it and the text after
  it each hold an even number of double quotes (`IsDelimiter`). `Tokenize` is
  that split, literally; `Cut` is the same split computed by one left-to-right
  scan that tracks whether it is inside a quoted span, and `TokenizeByScan`
  proves the two agree.
 */
module ConsoleCommand {
  import opened Wrappers
  import opened Strings

  /** The library used when the name token does not hold exactly one dot. */
  const DefaultLibrary: string := "DefaultCommands"

  const Quotes: set<char> := {'"'}

  function QuoteCount(s: string): nat {
    CountIn(s, Quotes)
  }

  predicate Even(n: nat) {
    n % 2 == 0
  }

  /** The position `p` holds a space that the splitting expression matches. */
  predicate IsDelimiter(line: string, p: nat)
    requires p < |line|
  {
    line[p] == ' ' && Even(QuoteCount(line[..p])) && Even(QuoteCount(line[p + 1..]))
  }

  // ---------------------------------------------------------------------------
  // Tokenizing
  // ---------------------------------------------------------------------------

  /** `Regex.Split` from position `i` on, the current token having started at `start`. */
  function SplitFrom(line: string, start: nat, i: nat): (r: seq<string>)
    requires start <= i <= |line|
    ensures |r| >= 1
    decreases |line| - i
  {
    if i == |line| then [line[start..]]
    else if IsDelimiter(line, i) then [line[start..i]] + SplitFrom(line, i + 1, i + 1)
    else SplitFrom(line, start, i + 1)
  }

  /** The tokens of a line: the pieces between its delimiters, in order. There
      is always at least one, and a line without a delimiter is one token. */
  function Tokenize(line: string): (r: seq<string>)
    ensures |r| >= 1
    ensures (forall p :: 0 <= p < |line| ==> !IsDelimiter(line, p)) ==> r == [line]
  {
    WholeLineToken(line);
    SplitFrom(line, 0, 0)
  }

  /** Splits `s` at every space met outside a quoted span; `inQuotes` tells
      whether the scan starts inside one. */
  function Cut(s: string, inQuotes: bool): (r: seq<string>)
    ensures |r| >= 1
    decreases |s|
  {
    if |s| == 0 then [""]
    else if s[0] == ' ' && !inQuotes then [""] + Cut(s[1..], inQuotes)
    else
      var rest := Cut(s[1..], if s[0] == '"' then !inQuotes else inQuotes);
      [[s[0]] + rest[0]] + rest[1..]
  }

  /** Whether the text `s` leaves the scan inside a quoted span. */
  predicate OddQuotes(s: string) {
    !Even(QuoteCount(s))
  }

  lemma QuoteCountStep(line: string, i: nat)
    requires i < |line|
    ensures QuoteCount(line[..i + 1]) == QuoteCount(line[..i]) + (if line[i] == '"' then 1 else 0)
    ensures QuoteCount(line) == QuoteCount(line[..i + 1]) + QuoteCount(line[i + 1..])
  {
    assert line[..i + 1] == line[..i] + [line[i]];
    CountInAppend(line[..i], [line[i]], Quotes);
    assert [line[i]][1..] == [];
    assert line == line[..i + 1] + line[i + 1..];
    CountInAppend(line[..i + 1], line[i + 1..], Quotes);
  }

  /** Invariant linking the literal split to the scan at position `i`. */
  lemma {:induction false} SplitFromScan(line: string, start: nat, i: nat)
    requires start <= i <= |line|
    requires Even(QuoteCount(line))
    ensures var c := Cut(line[i..], OddQuotes(line[..i]));
      SplitFrom(line, start, i) == [line[start..i] + c[0]] + c[1..]
    decreases |line| - i
  {
    if i == |line| {
      assert line[i..] == "";
      assert line[start..i] + "" == line[start..];
    } else {
      var q := OddQuotes(line[..i]);
      QuoteCountStep(line, i);
      assert line[i..][0] == line[i];
      assert line[i..][1..] == line[i + 1..];
      SplitFromScan(line, if IsDelimiter(line, i) then i + 1 else start, i + 1);
      var c' := Cut(line[i + 1..], OddQuotes(line[..i + 1]));
      if IsDelimiter(line, i) {
        assert !q;
        assert OddQuotes(line[..i + 1]) == q;
        var c := Cut(line[i..], q);
        assert c == [""] + c';
        assert c[0] == "" && c[1..] == c';
        assert line[start..i] + "" == line[start..i];
        assert line[i + 1..i + 1] + c'[0] == c'[0];
        assert [line[i + 1..i + 1] + c'[0]] + c'[1..] == c';
      } else {
        assert !(line[i] == ' ' && !q);
        assert OddQuotes(line[..i + 1]) == (if line[i] == '"' then !q else q);
        assert Cut(line[i..], q) == [[line[i]] + c'[0]] + c'[1..];
        assert line[start..i + 1] == line[start..i] + [line[i]];
        assert line[start..i + 1] + c'[0] == line[start..i] + ([line[i]] + c'[0]);
      }
    }
  }

  /** With no delimiter from `i` on, the rest of the line is one token. */
  lemma {:induction false} SplitFromNoDelimiter(line: string, start: nat, i: nat)
    requires start <= i <= |line|
    requires forall p :: i <= p < |line| ==> !IsDelimiter(line, p)
    ensures SplitFrom(line, start, i) == [line[start..]]
    decreases |line| - i
  {
    if i < |line| {
      SplitFromNoDelimiter(line, start, i + 1);
    }
  }

  lemma WholeLineToken(line: string)
    ensures (forall p :: 0 <= p < |line| ==> !IsDelimiter(line, p)) ==> SplitFrom(line, 0, 0) == [line]
  {
    if forall p :: 0 <= p < |line| ==> !IsDelimiter(line, p) {
      SplitFromNoDelimiter(line, 0, 0);
      assert line[0..] == line;
    }
  }

  /** A line with an odd number of quotes has no delimiter at all. */
  lemma {:induction false} OddQuotesNoDelimiter(line: string, p: nat)
    requires p < |line| && OddQuotes(line)
    ensures !IsDelimiter(line, p)
  {
    QuoteCountStep(line, p);
    if line[p] == ' ' {
      assert QuoteCount(line[..p + 1]) == QuoteCount(line[..p]);
    }
  }

  /** The literal split and the one-pass scan agree on every line; a line with
      an odd number of quotes is not split at all. */
  lemma {:induction false} TokenizeByScan(line: string)
    ensures Tokenize(line) == if OddQuotes(line) then [line] else Cut(line, false)
  {
    if OddQuotes(line) {
      forall p | 0 <= p < |line|
        ensures !IsDelimiter(line, p)
      {
        OddQuotesNoDelimiter(line, p);
      }
    } else {
      SplitFromScan(line, 0, 0);
      assert line[..0] == "";
      assert line[0..] == line;
      var c := Cut(line, false);
      assert line[0..0] + c[0] == c[0];
      assert [c[0]] + c[1..] == c;
    }
  }

  /** Re-joining the scan's pieces with single spaces restores the text. */
  lemma {:induction false} CutThenJoin(s: string, q: bool)
    ensures JoinWith(Cut(s, q), ' ') == s
    decreases |s|
  {
    if |s| > 0 {
      var q' := if s[0] == '"' then !q else q;
      assert s == [s[0]] + s[1..];
      if s[0] == ' ' && !q {
        CutThenJoin(s[1..], q);
        JoinWithCons("", Cut(s[1..], q), ' ');
        assert "" + [' '] == [' '];
      } else {
        CutThenJoin(s[1..], q');
        JoinWithFuse(s[0], Cut(s[1..], q'), ' ');
      }
    }
  }

  /** Joining the tokens with single spaces reproduces the line exactly, so no
      character is lost and the tokens keep their order; two adjacent
      delimiters yield an empty token. */
  lemma {:induction false} TokenizeThenJoin(line: string)
    ensures JoinWith(Tokenize(line), ' ') == line
  {
    TokenizeByScan(line);
    if !OddQuotes(line) {
      CutThenJoin(line, false);
    }
  }

  lemma OddQuotesStep(x: string)
    requires |x| > 0
    ensures OddQuotes(x) == (OddQuotes(x[1..]) != (x[0] == '"'))
  {
    assert x == [x[0]] + x[1..];
    CountInAppend([x[0]], x[1..], Quotes);
    assert [x[0]][1..] == [];
  }

  /** One step of the scan over a concatenation whose left part is not empty. */
  lemma CutAppendUnfold(x: string, y: string, q: bool)
    requires |x| > 0
    ensures Cut(x + y, q) == if x[0] == ' ' && !q then [""] + Cut(x[1..] + y, q)
      else var r := Cut(x[1..] + y, if x[0] == '"' then !q else q); [[x[0]] + r[0]] + r[1..]
  {
    assert (x + y)[0] == x[0];
    assert (x + y)[1..] == x[1..] + y;
  }

  /** How the scan distributes over concatenation: the last piece of `x` and
      the first piece of `y` fuse, and `y` is scanned in the state `x` left. */
  lemma {:induction false} CutAppend(x: string, y: string, q: bool)
    ensures Cut(x + y, q) == Fuse(Cut(x, q), Cut(y, q != OddQuotes(x)))
    decreases |x|
  {
    var qy := q != OddQuotes(x);
    if |x| == 0 {
      assert QuoteCount("") == 0;
      CutAppendEmpty(y, q);
    } else {
      var q1 := if (x[0] == ' ' && !q) || x[0] != '"' then q else !q;
      CutAppend(x[1..], y, q1);
      OddQuotesStep(x);
      assert (q1 != OddQuotes(x[1..])) == qy;
      CutAppendStep(x, y, q, q1, qy);
    }
  }

  lemma CutAppendStep(x: string, y: string, q: bool, q1: bool, qy: bool)
    requires |x| > 0
    requires q1 == if (x[0] == ' ' && !q) || x[0] != '"' then q else !q
    requires Cut(x[1..] + y, q1) == Fuse(Cut(x[1..], q1), Cut(y, qy))
    ensures Cut(x + y, q) == Fuse(Cut(x, q), Cut(y, qy))
  {
    CutAppendUnfold(x, y, q);
    var a := Cut(x[1..], q1);
    if x[0] == ' ' && !q {
      assert Cut(x, q) == [""] + a;
      FuseAfterSeparator(a, Cut(y, qy));
    } else {
      assert Cut(x, q) == [[x[0]] + a[0]] + a[1..];
      FuseAfterChar(x[0], a, Cut(y, qy));
    }
  }

  lemma CutAppendEmpty(y: string, q: bool)
    ensures Cut("" + y, q) == Fuse(Cut("", q), Cut(y, q))
  {
    assert Cut("", q) == [""];
    assert "" + y == y;
    FuseAfterEmpty(Cut(y, q));
  }

  lemma QuoteCountConcat(x: string, y: string)
    ensures QuoteCount(x + " " + y) == QuoteCount(x) + QuoteCount(y)
  {
    assert x + " " + y == x + (" " + y);
    CountInAppend(x, " " + y, Quotes);
    CountInAppend(" ", y, Quotes);
    assert " "[1..] == "";
  }

  /** Splitting at an outer delimiter: the tokens of `x + " " + y`, when both
      sides hold an even number of quotes, are those of `x` followed by those
      of `y`. */
  lemma {:induction false} TokenizeConcat(x: string, y: string)
    requires !OddQuotes(x) && !OddQuotes(y)
    ensures Tokenize(x + " " + y) == Tokenize(x) + Tokenize(y)
  {
    var s := x + " " + y;
    QuoteCountConcat(x, y);
    assert Even(QuoteCount(x) + QuoteCount(y));
    assert !OddQuotes(s);
    TokenizeByScan(s);
    assert Tokenize(s) == Cut(s, false);
    TokenizeByScan(x);
    assert Tokenize(x) == Cut(x, false);
    TokenizeByScan(y);
    assert Tokenize(y) == Cut(y, false);
    CutConcat(x, y);
  }

  lemma CutConcat(x: string, y: string)
    requires !OddQuotes(x)
    ensures Cut(x + " " + y, false) == Cut(x, false) + Cut(y, false)
  {
    assert x + " " + y == x + (" " + y);
    CutAppend(x, " " + y, false);
    CutAfterSpace(y);
    FuseBeforeSeparator(Cut(x, false), Cut(y, false));
  }

  lemma CutAfterSpace(y: string)
    ensures Cut(" " + y, false) == [""] + Cut(y, false)
  {
    assert (" " + y)[0] == ' ';
    assert (" " + y)[1..] == y;
  }

  /** A quoted span whose inside holds no quote is a single token, whatever
      spaces it contains. */
  lemma {:induction false} QuotedSpanIsOneToken(inside: string)
    requires NoneIn(inside, Quotes)
    ensures QuoteCount("\"" + inside + "\"") == 2
    ensures Tokenize("\"" + inside + "\"") == ["\"" + inside + "\""]
  {
    var s := "\"" + inside + "\"";
    CountInNone(inside, Quotes);
    CountInAppend("\"" + inside, "\"", Quotes);
    CountInAppend("\"", inside, Quotes);
    assert QuoteCount(s) == 2;
    TokenizeByScan(s);
    CutInsideQuotes(inside);
    CutAppend(inside, "\"", true);
    assert "\""[1..] == "";
    assert Cut("", true) == [""];
    assert ['"'] + "" == "\"" && [""][1..] == [];
    assert Cut("\"", false) == ["\""];
    assert Cut(inside + "\"", true) == [inside + "\""];
    CutAppendUnfold("\"", inside + "\"", false);
    assert "\""[1..] + (inside + "\"") == inside + "\"";
    assert s == "\"" + (inside + "\"");
  }

  lemma {:induction false} CutInsideQuotes(inside: string)
    requires NoneIn(inside, Quotes)
    ensures Cut(inside, true) == [inside]
    decreases |inside|
  {
    if |inside| > 0 {
      CutInsideQuotes(inside[1..]);
      assert inside == [inside[0]] + inside[1..];
    }
  }

  lemma {:induction false} CutWithoutSpaces(s: string, q: bool)
    requires NoneIn(s, {' '})
    ensures Cut(s, q) == [s]
    decreases |s|
  {
    if |s| > 0 {
      CutWithoutSpaces(s[1..], if s[0] == '"' then !q else q);
      assert s == [s[0]] + s[1..];
    }
  }

  /** A text without spaces is a single token. */
  lemma {:induction false} SpaceFreeIsOneToken(s: string)
    requires NoneIn(s, {' '})
    ensures Tokenize(s) == [s]
  {
    TokenizeByScan(s);
    CutWithoutSpaces(s, false);
  }

  /** Round trip from the other side: tokens that are each atomic and hold an
      even number of quotes come back unchanged from their space-joined line. */
  lemma {:induction false} JoinThenTokenize(tokens: seq<string>)
    requires |tokens| >= 1
    requires forall i :: 0 <= i < |tokens| ==> !OddQuotes(tokens[i]) && Tokenize(tokens[i]) == [tokens[i]]
    ensures !OddQuotes(JoinWith(tokens, ' '))
    ensures Tokenize(JoinWith(tokens, ' ')) == tokens
    decreases |tokens|
  {
    if |tokens| > 1 {
      var rest := JoinWith(tokens[1..], ' ');
      JoinThenTokenize(tokens[1..]);
      assert JoinWith(tokens, ' ') == tokens[0] + " " + rest;
      CountInAppend(tokens[0], " " + rest, Quotes);
      CountInAppend(" ", rest, Quotes);
      assert tokens[0] + " " + rest == tokens[0] + (" " + rest);
      TokenizeConcat(tokens[0], rest);
      assert tokens == [tokens[0]] + tokens[1..];
    }
  }

  // ---------------------------------------------------------------------------
  // Unquoting an argument
  // ---------------------------------------------------------------------------

  /** The characters of `s` before its first quote, if it has one. */
  function UpToQuote(s: string): (r: Option<string>)
    ensures r.None? <==> QuoteCount(s) == 0
    ensures r.Some? ==>
              && |r.value| < |s| && s[..|r.value|] == r.value && s[|r.value|] == '"'
              && NoneIn(r.value, Quotes)
    decreases |s|
  {
    if |s| == 0 then None
    else if s[0] == '"' then Some("")
    else match UpToQuote(s[1..])
      case None => None
      case Some(t) =>
        assert s[..|t| + 1] == [s[0]] + s[1..][..|t|];
        Some([s[0]] + t)
  }

  /** The text between the first two quotes of `s`, if it has two: what
      the lazy pattern `"(.*?)"` captures. */
  function FirstQuotedSpan(s: string): (r: Option<string>)
    ensures r.None? <==> QuoteCount(s) < 2
    ensures r.Some? ==> NoneIn(r.value, Quotes)
    decreases |s|
  {
    if |s| == 0 then None
    else if s[0] == '"' then UpToQuote(s[1..])
    else FirstQuotedSpan(s[1..])
  }

  /** How constructing the command can fail: the argument at `position` (counted
      from 0) has an empty first quoted span, so the second pattern finds no
      match and reading its first capture throws. */
  datatype ParseFault = EmptyQuotedArgument(position: nat)

  /** One argument token: the inside of its first quoted span, or the token
      verbatim when it has no quoted span. A token has a quoted span iff it
      holds at least two quotes; an empty span is a failure. */
  function Unquote(token: string): (r: Result<string, ()>)
    ensures QuoteCount(token) < 2 ==> r == Success(token)
    ensures r.Failure? ==> QuoteCount(token) >= 2
    ensures QuoteCount(token) >= 2 && r.Success? ==> |r.value| > 0 && NoneIn(r.value, Quotes)
  {
    match FirstQuotedSpan(token)
    case None => Success(token)
    case Some(inside) => if |inside| == 0 then Failure(()) else Success(inside)
  }

  lemma {:induction false} UpToQuoteOf(c: string, post: string)
    requires NoneIn(c, Quotes)
    ensures UpToQuote(c + "\"" + post) == Some(c)
    decreases |c|
  {
    if |c| > 0 {
      assert (c + "\"" + post)[1..] == c[1..] + "\"" + post;
      UpToQuoteOf(c[1..], post);
      assert [c[0]] + c[1..] == c;
    } else {
      assert c + "\"" + post == "\"" + post;
    }
  }

  /** A token `pre "c" post`, with no quote in `pre` or `c`, unquotes to `c`,
      unless `c` is empty, in which case the construction fails; text outside
      the first quoted span is dropped. */
  lemma {:induction false} UnquoteQuoted(pre: string, c: string, post: string)
    requires NoneIn(pre, Quotes) && NoneIn(c, Quotes)
    ensures Unquote(pre + "\"" + c + "\"" + post) == if |c| == 0 then Failure(()) else Success(c)
    decreases |pre|
  {
    var s := pre + "\"" + c + "\"" + post;
    if |pre| > 0 {
      assert s[0] == pre[0];
      assert s[1..] == pre[1..] + "\"" + c + "\"" + post;
      UnquoteQuoted(pre[1..], c, post);
    } else {
      assert s == "\"" + (c + "\"" + post);
      assert s[1..] == c + "\"" + post;
      UpToQuoteOf(c, post);
    }
  }

  // ---------------------------------------------------------------------------
  // The command descriptor
  // ---------------------------------------------------------------------------

  /** The parsed line: library, command name and arguments in input order. */
  datatype CommandLine = CommandLine(library: string, name: string, arguments: seq<string>)

  /** The library and command named by the first token: the two parts around
      its dot when it has exactly one, otherwise the default library and the
      whole token, so `a.b.c` stays one name. */
  function SplitName(token: string): (r: (string, string))
    ensures CountIn(token, {'.'}) == 1 ==>
      token == r.0 + "." + r.1 && NoneIn(r.0, {'.'}) && NoneIn(r.1, {'.'})
    ensures CountIn(token, {'.'}) != 1 ==> r == (DefaultLibrary, token)
  {
    var parts := Split(token, {'.'});
    if |parts| == 2 then
      SplitThenJoin(token, '.');
      assert JoinWith(parts, '.') == parts[0] + "." + parts[1];
      (parts[0], parts[1])
    else (DefaultLibrary, token)
  }

  /** Unquotes the argument tokens in order, stopping at the first failure. */
  function UnquoteAll(tokens: seq<string>, position: nat): (r: Result<seq<string>, ParseFault>)
    ensures r.Success? ==>
              && |r.value| == |tokens|
              && forall i :: 0 <= i < |tokens| ==> Unquote(tokens[i]) == Success(r.value[i])
    ensures r.Failure? ==>
              exists i :: && 0 <= i < |tokens|
                          && Unquote(tokens[i]).Failure?
                          && r.error == EmptyQuotedArgument(position + i)
                          && forall j :: 0 <= j < i ==> Unquote(tokens[j]).Success?
    ensures (forall i :: 0 <= i < |tokens| ==> Unquote(tokens[i]).Success?) ==> r.Success?
    decreases |tokens|
  {
    if |tokens| == 0 then Success([])
    else match Unquote(tokens[0])
      case Failure(_) => Failure(EmptyQuotedArgument(position))
      case Success(a) =>
        match UnquoteAll(tokens[1..], position + 1)
        case Failure(e) => Failure(e)
        case Success(rest) => Success([a] + rest)
  }

  /** The constructor: tokenize, split the name, unquote the arguments. */
  function Parse(line: string): (r: Result<CommandLine, ParseFault>)
    ensures var tokens := Tokenize(line);
      |tokens| >= 1
      && (r.Success? <==> forall i :: 1 <= i < |tokens| ==> Unquote(tokens[i]).Success?)
      && (r.Success? ==>
            (r.value.library, r.value.name) == SplitName(tokens[0])
            && |r.value.arguments| == |tokens| - 1
            && forall i :: 0 <= i < |r.value.arguments| ==>
                 Unquote(tokens[i + 1]) == Success(r.value.arguments[i]))
  {
    TokenizeByScan(line);
    var tokens := Tokenize(line);
    var (library, name) := SplitName(tokens[0]);
    match UnquoteAll(tokens[1..], 0)
    case Failure(e) => Failure(e)
    case Success(arguments) => Success(CommandLine(library, name, arguments))
  }

  /** A line with an odd number of quotes is not split at all: the whole line
      is the name token and there are no arguments. */
  lemma OddQuotesWholeLine(line: string)
    requires OddQuotes(line)
    ensures Parse(line) == Success(CommandLine(SplitName(line).0, SplitName(line).1, []))
  {
    TokenizeByScan(line);
    assert Tokenize(line)[1..] == [];
  }

  const GreetLine: string := "greet \"New York\" 5"

  /** The line `greet "New York" 5` parses to command `greet` of the default
      library with the arguments `New York` and `5`. */
  lemma GreetExample()
    ensures Parse(GreetLine) == Success(CommandLine(DefaultLibrary, "greet", ["New York", "5"]))
  {
    var line := GreetLine;
    var a, b, c, d := "greet", "\"New York\"", "5", "New York";
    GreetTokens();
    GreetName();
    GreetQuoted();
    CountInNone(c, Quotes);
    ParseOfThree(line, a, b, c, d, c);
  }

  lemma GreetName()
    ensures SplitName("greet") == (DefaultLibrary, "greet")
  {
    CountInNone("greet", {'.'});
  }

  lemma GreetQuoted()
    ensures Unquote("\"New York\"") == Success("New York")
  {
    var d := "New York";
    UnquoteQuoted("", d, "");
    assert "" + "\"" + d + "\"" + "" == "\"New York\"";
  }

  /** `ParseOfTokens` for a name token and two arguments. */
  lemma ParseOfThree(line: string, a: string, b: string, c: string, u: string, v: string)
    requires Tokenize(line) == [a, b, c]
    requires Unquote(b) == Success(u) && Unquote(c) == Success(v)
    ensures Parse(line) == Success(CommandLine(SplitName(a).0, SplitName(a).1, [u, v]))
  {
    var tokens, arguments := [a, b, c], [u, v];
    assert forall i :: 0 <= i < |arguments| ==> tokens[i + 1] == [b, c][i];
    ParseOfTokens(line, tokens, arguments);
  }

  /** The parse of a line whose tokens and unquoted arguments are known. */
  lemma ParseOfTokens(line: string, tokens: seq<string>, arguments: seq<string>)
    requires Tokenize(line) == tokens && |tokens| == |arguments| + 1
    requires forall i :: 0 <= i < |arguments| ==> Unquote(tokens[i + 1]) == Success(arguments[i])
    ensures Parse(line) == Success(CommandLine(SplitName(tokens[0]).0, SplitName(tokens[0]).1, arguments))
  {
    var r := Parse(line);
    forall i | 1 <= i < |tokens|
      ensures Unquote(tokens[i]).Success?
    {
      assert Unquote(tokens[(i - 1) + 1]) == Success(arguments[i - 1]);
    }
    assert r.Success?;
    assert r.value.arguments == arguments;
  }

  /** A bare word, a quoted span and a bare word, separated by single spaces,
      are three tokens: the quoted span stays whole. */
  lemma ThreeTokens(a: string, inside: string, c: string)
    requires NoneIn(a, {' ', '"'}) && NoneIn(c, {' ', '"'}) && NoneIn(inside, Quotes)
    ensures var b := "\"" + inside + "\"";
      Tokenize(a + " " + b + " " + c) == [a, b, c]
  {
    var b := "\"" + inside + "\"";
    assert a + " " + b + " " + c == a + " " + (b + " " + c);
    assert NoneIn(a, {' '}) && NoneIn(a, Quotes);
    assert NoneIn(c, {' '}) && NoneIn(c, Quotes);
    SpaceFreeIsOneToken(a);
    SpaceFreeIsOneToken(c);
    QuotedSpanIsOneToken(inside);
    CountInNone(a, Quotes);
    CountInNone(c, Quotes);
    QuoteCountConcat(b, c);
    TokenizeConcat(b, c);
    TokenizeConcat(a, b + " " + c);
  }

  /** The tokens of `greet "New York" 5`. */
  lemma GreetTokens()
    ensures Tokenize(GreetLine) == ["greet", "\"New York\"", "5"]
  {
    var line := GreetLine;
    var a, inside, c := "greet", "New York", "5";
    var b := "\"" + inside + "\"";
    assert b == "\"New York\"";
    assert line == a + " " + b + " " + c;
    ThreeTokens(a, inside, c);
  }
}

=== FILE: dispatcher.dfy ===
/**
  `Program.Execute` and `Program.CoerceArgument`: resolve a parsed command
  against the registry, check its arity, materialize the parameter list and
  invoke the method.

  Outcomes keep the source's two channels apart. A `Reply` is a string that
  `Execute` returns, including the messages for an unknown library, an unknown
  command and a missing argument. A `Fault` is an exception that leaves
  `Execute` and is printed by the shell loop instead.

  The parsers behind `Int32.TryParse`, `DateTime.TryParse` and the rest are the
  parameter `parses`; the reflective call of the resolved method is the
  parameter `invoke`.
 */
module Dispatcher {
  import opened Wrappers
  import opened Strings
  import opened Registry
  import opened ConsoleCommand

  /** What the reflective call produced: a result object (its `ToString()`),
      a null result, or an exception thrown by the method itself. */
  datatype Invocation = Returned(text: string) | ReturnedNull | Raised(message: string)

  /** Strings `Execute` returns. */
  datatype Reply =
    | Output(text: string)
    | UnknownLibrary(library: string)
    | UnknownCommand(library: string, command: string)
    | MissingArgument(required: nat, optional: nat, provided: nat)
  {
    /** The text the shell prints: the method's output as it is, or one of the
        three messages `Execute` composes. */
    function Text(): (r: string)
      ensures this.Output? ==> r == text
      ensures this.UnknownLibrary? ==> r == "Unrecognized library '" + library + "'."
      ensures this.UnknownCommand? ==> r == "Unrecognized command '" + library + "." + command + "'."
      ensures this.MissingArgument? ==>
                r == "Missing required argument. " + NatToString(required) + " required, "
                     + NatToString(optional) + " optional, " + NatToString(provided) + " provided"
    {
      match this
      case Output(t) => t
      case UnknownLibrary(l) => "Unrecognized library '" + l + "'."
      case UnknownCommand(l, c) => "Unrecognized command '" + l + "." + c + "'."
      case MissingArgument(r, o, p) =>
        "Missing required argument. " + NatToString(r) + " required, "
        + NatToString(o) + " optional, " + NatToString(p) + " provided"
    }
  }

  /** Exceptions that leave `Execute`. */
  datatype Fault =
      /** An argument failed coercion (or its type is not handled). */
    | CannotCoerce(parameter: string, typeName: string)
      /** `ElementAt(i)` past the end of the parameter list. */
    | ArgumentIndexOutOfRange(index: nat)
      /** `ToString()` called on the null result of a method. */
    | NullResult
      /** The invoked method threw; its own exception is rethrown. */
    | OperationRaised(message: string)
  {
    /** The message printed for a fault whose text the shell itself composes;
        the runtime's own messages are not part of this model. */
    function Message(): (r: Option<string>)
      ensures this.CannotCoerce? ==>
                r == Some("The value passed for argument '" + parameter + "' cannot be parsed to type '" + typeName + "'")
      ensures this.OperationRaised? ==> r == Some(message)
      ensures r.None? <==> this.ArgumentIndexOutOfRange? || this.NullResult?
    {
      match this
      case CannotCoerce(p, t) =>
        Some("The value passed for argument '" + p + "' cannot be parsed to type '" + t + "'")
      case OperationRaised(m) => Some(m)
      case _ => None
    }
  }

  /** The messages `Execute` composes tell their kinds apart: two replies that
      are not method output and print the same text are of the same kind, and
      an unknown-library message names exactly one library. */
  lemma ReplyKindsDistinct(a: Reply, b: Reply)
    requires !a.Output? && !b.Output? && a.Text() == b.Text()
    ensures a.UnknownLibrary? == b.UnknownLibrary?
    ensures a.UnknownCommand? == b.UnknownCommand?
    ensures a.MissingArgument? == b.MissingArgument?
    ensures a.UnknownLibrary? ==> a == b
  {
    KindMarks(a);
    KindMarks(b);
    if a.UnknownLibrary? && b.UnknownLibrary? {
      LibraryReadBack(a);
      LibraryReadBack(b);
    }
  }

  /** Where a composed message shows its kind: `M` at the start for a missing
      argument, and `l` or `c` after `Unrecognized ` for the other two. */
  lemma KindMarks(a: Reply)
    requires !a.Output?
    ensures |a.Text()| > 13
    ensures a.MissingArgument? <==> a.Text()[0] == 'M'
    ensures a.UnknownLibrary? <==> a.Text()[0] == 'U' && a.Text()[13] == 'l'
    ensures a.UnknownCommand? <==> a.Text()[0] == 'U' && a.Text()[13] == 'c'
  {
  }

  /** The library an unknown-library message names sits between its fixed
      prefix and suffix. */
  lemma LibraryReadBack(a: Reply)
    requires a.UnknownLibrary?
    ensures |a.Text()| == |a.library| + 24
    ensures a.Text()[22..|a.Text()| - 2] == a.library
  {
  }

  // ---------------------------------------------------------------------------
  // Coercion
  // ---------------------------------------------------------------------------

  /** The thirteen type codes that are validated by a `TryParse`. */
  const ParsedCodes: set<TypeCode> :=
    {Boolean, Byte, Char, Int16, Int32, Int64, UInt16, UInt32, UInt64, Single, Double, Decimal, DateTime}

  /** Throws an argument exception with `message` unless the check passed. */
  function TryOrThrow(passed: bool, message: string): (r: Result<(), string>)
    ensures r.Success? <==> passed
    ensures r.Failure? ==> r.error == message
  {
    if passed then Success(()) else Failure(message)
  }

  /** `CoerceArgument`: a `String` argument is passed on as is. For the other
      handled codes the text is only validated: the parsed local is discarded
      and the result stays null. Any other code throws. */
  function CoerceArgument(code: TypeCode, typeName: string, input: string,
                          parses: (TypeCode, string) -> bool): (r: Result<Value, string>)
    ensures r.Success? <==> code == String || (code in ParsedCodes && parses(code, input))
    ensures r.Success? ==> r.value == (if code == String then Text(input) else Null)
    ensures r.Failure? ==>
      r.error == "Cannnot coerce the input argument " + input + " to required type " + typeName
  {
    var message := "Cannnot coerce the input argument " + input + " to required type " + typeName;
    match code
    case String => Success(Text(input))
    case Int16 | Int32 | Int64 | Boolean | Byte | Char | DateTime
       | Decimal | Double | Single | UInt16 | UInt32 | UInt64 =>
      var _ :- TryOrThrow(parses(code, input), message);
      Success(Null)
    case _ => Failure(message)
  }

  predicate Coercible(p: Parameter, argument: string, parses: (TypeCode, string) -> bool) {
    CoerceArgument(p.typeCode, p.typeName, argument, parses).Success?
  }

  function Coerced(p: Parameter, argument: string, parses: (TypeCode, string) -> bool): Value
    requires Coercible(p, argument, parses)
  {
    CoerceArgument(p.typeCode, p.typeName, argument, parses).value
  }

  // ---------------------------------------------------------------------------
  // Parameter materialization
  // ---------------------------------------------------------------------------

  /** The slot a parameter starts with: its default value, or null. */
  function Seed(p: Parameter): Value {
    match p.defaultValue
    case Some(v) => v
    case None => Null
  }

  function Seeds(params: seq<Parameter>): (r: seq<Value>)
    ensures |r| == |params|
  {
    seq(|params|, i requires 0 <= i < |params| => Seed(params[i]))
  }

  /** Argument `k` can be bound: a parameter exists at `k` and accepts it. */
  predicate Bindable(params: seq<Parameter>, args: seq<string>, k: nat, parses: (TypeCode, string) -> bool)
    requires k < |args|
  {
    k < |params| && Coercible(params[k], args[k], parses)
  }

  /** The fault raised at argument `k` when it cannot be bound. */
  function BindFault(params: seq<Parameter>, k: nat): Fault {
    if k < |params| then CannotCoerce(params[k].name, params[k].typeName)
    else ArgumentIndexOutOfRange(k)
  }

  /** The binding loop from argument `i` on, over the slots filled so far:
      each argument replaces its own slot, and the first argument that cannot
      be bound aborts the loop with its fault. */
  function BindFrom(params: seq<Parameter>, args: seq<string>, parses: (TypeCode, string) -> bool,
                    i: nat, slots: seq<Value>): (r: Result<seq<Value>, Fault>)
    requires i <= |args| && |slots| == |params|
    ensures r.Success? <==> forall k :: i <= k < |args| ==> Bindable(params, args, k, parses)
    ensures r.Success? ==>
              && |r.value| == |params|
              && (forall k :: i <= k < |args| ==>
                    Bindable(params, args, k, parses) && r.value[k] == Coerced(params[k], args[k], parses))
              && (forall k :: 0 <= k < |params| && !(i <= k < |args|) ==> r.value[k] == slots[k])
    ensures r.Failure? ==>
              exists k :: && i <= k < |args|
                          && !Bindable(params, args, k, parses)
                          && (forall j :: i <= j < k ==> Bindable(params, args, j, parses))
                          && r.error == BindFault(params, k)
    decreases |args| - i
  {
    if i == |args| then Success(slots)
    else if i >= |params| then
      assert !Bindable(params, args, i, parses) && BindFault(params, i) == ArgumentIndexOutOfRange(i);
      Failure(ArgumentIndexOutOfRange(i))
    else match CoerceArgument(params[i].typeCode, params[i].typeName, args[i], parses)
      case Failure(_) =>
        assert !Bindable(params, args, i, parses);
        Failure(BindFault(params, i))
      case Success(v) => BindFrom(params, args, parses, i + 1, slots[i := v])
  }

  /** The parameter list handed to the method: one slot per parameter, seeded
      with defaults or null; argument `k` replaces slot `k` and no other, and
      slots past the last argument keep their seeds. Fails at the first
      argument without a parameter or whose coercion fails. */
  function Materialize(params: seq<Parameter>, args: seq<string>,
                       parses: (TypeCode, string) -> bool): (r: Result<seq<Value>, Fault>)
    ensures r.Success? <==> |args| <= |params| && forall k :: 0 <= k < |args| ==> Coercible(params[k], args[k], parses)
    ensures r.Success? ==>
              && |r.value| == |params|
              && (forall k :: 0 <= k < |args| ==>
                    Coercible(params[k], args[k], parses) && r.value[k] == Coerced(params[k], args[k], parses))
              && (forall k :: |args| <= k < |params| ==> r.value[k] == Seed(params[k]))
    ensures r.Failure? ==>
              exists k :: && 0 <= k < |args|
                          && !Bindable(params, args, k, parses)
                          && (forall j :: 0 <= j < k ==> Bindable(params, args, j, parses))
                          && r.error == BindFault(params, k)
  {
    var r := BindFrom(params, args, parses, 0, Seeds(params));
    assert r.Success? && |args| > |params| ==> !Bindable(params, args, |params|, parses);
    r
  }

  // ---------------------------------------------------------------------------
  // Execute
  // ---------------------------------------------------------------------------

  function OptionalCount(params: seq<Parameter>): nat
    decreases |params|
  {
    if |params| == 0 then 0 else (if params[0].isOptional then 1 else 0) + OptionalCount(params[1..])
  }

  /** Number of parameters that are not optional; with the optional ones they
      make up the whole list. */
  function RequiredCount(params: seq<Parameter>): (n: nat)
    ensures n + OptionalCount(params) == |params|
    decreases |params|
  {
    if |params| == 0 then 0 else (if params[0].isOptional then 0 else 1) + RequiredCount(params[1..])
  }

  /** The two case-insensitive lookups. On success, the positions of the library
      and of the method; on a miss, the reply `Execute` returns, which names the
      library as typed, or the library as registered and the command as typed. */
  function Resolve(reg: Registry, library: string, name: string): (r: Result<(nat, nat), Reply>)
    ensures r.Success? ==>
              && r.value.0 < |reg| && r.value.1 < |reg[r.value.0].methods|
              && SameIgnoringCase(reg[r.value.0].name, library)
              && SameIgnoringCase(reg[r.value.0].methods[r.value.1].name, name)
    ensures r == Failure(UnknownLibrary(library)) <==>
              forall k :: 0 <= k < |reg| ==> !SameIgnoringCase(reg[k].name, library)
    ensures r.Failure? && r.error.UnknownCommand? ==>
              exists k :: && 0 <= k < |reg|
                          && SameIgnoringCase(reg[k].name, library)
                          && r.error == UnknownCommand(reg[k].name, name)
                          && forall m :: 0 <= m < |reg[k].methods| ==> !SameIgnoringCase(reg[k].methods[m].name, name)
    ensures r.Failure? ==> r.error.UnknownLibrary? || r.error.UnknownCommand?
  {
    var names := LibraryNames(reg);
    assert forall k :: 0 <= k < |reg| ==> names[k] == reg[k].name;
    match Find(names, library)
    case None => Failure(UnknownLibrary(library))
    case Some(li) =>
      var methodNames := MethodNames(reg[li].methods);
      assert forall m :: 0 <= m < |reg[li].methods| ==> methodNames[m] == reg[li].methods[m].name;
      match Find(methodNames, name)
      case None => Failure(UnknownCommand(reg[li].name, name))
      case Some(mi) => Success((li, mi))
  }

  /** The reply or fault of the reflective call. */
  function Complete(outcome: Invocation): (r: Result<Reply, Fault>)
    ensures r.Success? <==> outcome.Returned?
    ensures r.Success? ==> r.value == Output(outcome.text)
    ensures outcome.ReturnedNull? ==> r == Failure(NullResult)
    ensures outcome.Raised? ==> r == Failure(OperationRaised(outcome.message))
  {
    match outcome
    case Returned(t) => Success(Output(t))
    case ReturnedNull => Failure(NullResult)
    case Raised(m) => Failure(OperationRaised(m))
  }

  /** `Execute`: resolve, check arity, materialize the parameters (only when the
      method has any), then invoke the method under its registered names. */
  function Execute(reg: Registry, cmd: CommandLine, parses: (TypeCode, string) -> bool,
                   invoke: (string, string, seq<Value>) -> Invocation): (r: Result<Reply, Fault>)
    ensures Resolve(reg, cmd.library, cmd.name).Failure? ==>
              r == Success(Resolve(reg, cmd.library, cmd.name).error)
    ensures Resolve(reg, cmd.library, cmd.name).Success? ==>
              var (li, mi) := Resolve(reg, cmd.library, cmd.name).value;
              var params := reg[li].methods[mi].parameters;
              (RequiredCount(params) > |cmd.arguments| <==>
                 r == Success(MissingArgument(RequiredCount(params), |params| - RequiredCount(params), |cmd.arguments|)))
  {
    match Resolve(reg, cmd.library, cmd.name)
    case Failure(reply) => Success(reply)
    case Success((li, mi)) =>
      var library := reg[li];
      var target := library.methods[mi];
      var params := target.parameters;
      var required := RequiredCount(params);
      var optional := OptionalCount(params);
      var provided := |cmd.arguments|;
      if required > provided then Success(MissingArgument(required, optional, provided))
      else
        var values :- if |params| > 0 then Materialize(params, cmd.arguments, parses) else Success([]);
        Complete(invoke(library.name, target.name, values))
  }

  // ---------------------------------------------------------------------------
  // Properties of Execute
  // ---------------------------------------------------------------------------

  /** Once the command resolves and enough arguments are given, every argument
      binds exactly when the method is invoked, and then it is invoked under the
      registered library and method names with the materialized slots: one per
      parameter, coerced arguments first, seeds after. */
  lemma ExecuteInvokes(reg: Registry, cmd: CommandLine, parses: (TypeCode, string) -> bool,
                       invoke: (string, string, seq<Value>) -> Invocation)
    requires Resolve(reg, cmd.library, cmd.name).Success?
    requires var (li, mi) := Resolve(reg, cmd.library, cmd.name).value;
      var params := reg[li].methods[mi].parameters;
      && RequiredCount(params) <= |cmd.arguments|
      && (|params| == 0 || Materialize(params, cmd.arguments, parses).Success?)
    ensures var (li, mi) := Resolve(reg, cmd.library, cmd.name).value;
      var params := reg[li].methods[mi].parameters;
      exists values: seq<Value> ::
        && |values| == |params|
        && (|params| > 0 ==>
              && (forall k :: 0 <= k < |cmd.arguments| ==> values[k] == Coerced(params[k], cmd.arguments[k], parses))
              && (forall k :: |cmd.arguments| <= k < |params| ==> values[k] == Seed(params[k])))
        && Execute(reg, cmd, parses, invoke) == Complete(invoke(reg[li].name, reg[li].methods[mi].name, values))
  {
    var (li, mi) := Resolve(reg, cmd.library, cmd.name).value;
    var params := reg[li].methods[mi].parameters;
    var values := if |params| > 0 then Materialize(params, cmd.arguments, parses).value else [];
    assert Execute(reg, cmd, parses, invoke) == Complete(invoke(reg[li].name, reg[li].methods[mi].name, values));
  }

  /** A command without parameters ignores whatever arguments it is given. */
  lemma ZeroParametersIgnoreArguments(reg: Registry, cmd: CommandLine, parses: (TypeCode, string) -> bool,
                                      invoke: (string, string, seq<Value>) -> Invocation)
    requires Resolve(reg, cmd.library, cmd.name).Success?
    requires var (li, mi) := Resolve(reg, cmd.library, cmd.name).value;
      |reg[li].methods[mi].parameters| == 0
    ensures Execute(reg, cmd, parses, invoke) == Execute(reg, cmd.(arguments := []), parses, invoke)
    ensures Execute(reg, cmd, parses, invoke)
      == Complete(invoke(reg[Resolve(reg, cmd.library, cmd.name).value.0].name,
                         reg[Resolve(reg, cmd.library, cmd.name).value.0].methods[Resolve(reg, cmd.library, cmd.name).value.1].name,
                         []))
  {
  }

  /** A command with parameters that is given more arguments than it has
      parameters throws before any invocation: at the first argument that fails
      coercion, or at the index one past the last parameter. */
  lemma ExtraArgumentsThrow(reg: Registry, cmd: CommandLine, parses: (TypeCode, string) -> bool,
                            invoke1: (string, string, seq<Value>) -> Invocation,
                            invoke2: (string, string, seq<Value>) -> Invocation)
    requires Resolve(reg, cmd.library, cmd.name).Success?
    requires var (li, mi) := Resolve(reg, cmd.library, cmd.name).value;
      var params := reg[li].methods[mi].parameters;
      0 < |params| < |cmd.arguments|
    ensures var r := Execute(reg, cmd, parses, invoke1);
      && r.Failure?
      && (r.error.ArgumentIndexOutOfRange? || r.error.CannotCoerce?)
      && r == Execute(reg, cmd, parses, invoke2)
    ensures var (li, mi) := Resolve(reg, cmd.library, cmd.name).value;
      var params := reg[li].methods[mi].parameters;
      (forall k :: 0 <= k < |params| ==> Coercible(params[k], cmd.arguments[k], parses)) ==>
        Execute(reg, cmd, parses, invoke1) == Failure(ArgumentIndexOutOfRange(|params|))
  {
    var (li, mi) := Resolve(reg, cmd.library, cmd.name).value;
    var params := reg[li].methods[mi].parameters;
    var m := Materialize(params, cmd.arguments, parses);
    assert !Bindable(params, cmd.arguments, |params|, parses);
    if forall k :: 0 <= k < |params| ==> Coercible(params[k], cmd.arguments[k], parses) {
      var k :| && 0 <= k < |cmd.arguments|
               && !Bindable(params, cmd.arguments, k, parses)
               && (forall j :: 0 <= j < k ==> Bindable(params, cmd.arguments, j, parses))
               && m.error == BindFault(params, k);
      assert k == |params|;
    }
  }

  /** When argument `k` is the first one that fails coercion, `Execute` throws
      the fault naming parameter `k` and its type, and the method is never
      invoked: the outcome does not depend on `invoke`. */
  lemma CoercionFailureAborts(reg: Registry, cmd: CommandLine, parses: (TypeCode, string) -> bool,
                              invoke1: (string, string, seq<Value>) -> Invocation,
                              invoke2: (string, string, seq<Value>) -> Invocation, k: nat)
    requires Resolve(reg, cmd.library, cmd.name).Success?
    requires var (li, mi) := Resolve(reg, cmd.library, cmd.name).value;
      var params := reg[li].methods[mi].parameters;
      && RequiredCount(params) <= |cmd.arguments|
      && k < |cmd.arguments| && k < |params|
      && !Coercible(params[k], cmd.arguments[k], parses)
      && forall j :: 0 <= j < k ==> Coercible(params[j], cmd.arguments[j], parses)
    ensures var (li, mi) := Resolve(reg, cmd.library, cmd.name).value;
      var p := reg[li].methods[mi].parameters[k];
      && Execute(reg, cmd, parses, invoke1) == Failure(CannotCoerce(p.name, p.typeName))
      && Execute(reg, cmd, parses, invoke2) == Execute(reg, cmd, parses, invoke1)
  {
    var (li, mi) := Resolve(reg, cmd.library, cmd.name).value;
    var params := reg[li].methods[mi].parameters;
    var m := Materialize(params, cmd.arguments, parses);
    var k' :| && 0 <= k' < |cmd.arguments|
              && !Bindable(params, cmd.arguments, k', parses)
              && (forall j :: 0 <= j < k' ==> Bindable(params, cmd.arguments, j, parses))
              && m.error == BindFault(params, k');
    assert !Bindable(params, cmd.arguments, k, parses);
    assert forall j :: 0 <= j < k ==> Bindable(params, cmd.arguments, j, parses);
    assert k' == k;
  }

  /** Library and command names that differ only in case dispatch identically
      once they resolve: the registered names are used from then on. */
  lemma ExecuteIgnoresCase(reg: Registry, cmd: CommandLine, cmd': CommandLine,
                           parses: (TypeCode, string) -> bool,
                           invoke: (string, string, seq<Value>) -> Invocation)
    requires SameIgnoringCase(cmd.library, cmd'.library) && SameIgnoringCase(cmd.name, cmd'.name)
    requires cmd.arguments == cmd'.arguments
    requires Resolve(reg, cmd.library, cmd.name).Success?
    ensures Resolve(reg, cmd'.library, cmd'.name) == Resolve(reg, cmd.library, cmd.name)
    ensures Execute(reg, cmd', parses, invoke) == Execute(reg, cmd, parses, invoke)
  {
    FindIgnoresCase(LibraryNames(reg), cmd.library, cmd'.library, 0);
    var li := Find(LibraryNames(reg), cmd.library).value;
    FindIgnoresCase(MethodNames(reg[li].methods), cmd.name, cmd'.name, 0);
  }

  /** Each missing-argument reply reports the counts of the resolved method. */
  lemma MissingArgumentCounts(reg: Registry, cmd: CommandLine, parses: (TypeCode, string) -> bool,
                              invoke: (string, string, seq<Value>) -> Invocation)
    requires Execute(reg, cmd, parses, invoke).Success?
    requires Execute(reg, cmd, parses, invoke).value.MissingArgument?
    ensures Resolve(reg, cmd.library, cmd.name).Success?
    ensures var reply := Execute(reg, cmd, parses, invoke).value;
      var (li, mi) := Resolve(reg, cmd.library, cmd.name).value;
      && reply.required > reply.provided == |cmd.arguments|
      && reply.required + reply.optional == |reg[li].methods[mi].parameters|
  {
  }

  /** The command `f(a: Int32, b: Int32 = 10)`, called as `f 5` and as `f 5 20`:
      as written, the parsed integers are dropped, so the method receives null
      for `a` and the default (or null) for `b`. */
  lemma DefaultingAsWritten(parses: (TypeCode, string) -> bool,
                            invoke: (string, string, seq<Value>) -> Invocation)
    requires parses(Int32, "5") && parses(Int32, "20")
    ensures var a := Parameter("a", Int32, "Int32", "System.Int32", false, None);
      var b := Parameter("b", Int32, "Int32", "System.Int32", true, Some(Constant("10")));
      var reg := [Library(DefaultLibrary, [Method("f", [a, b])])];
      && Execute(reg, CommandLine(DefaultLibrary, "f", ["5"]), parses, invoke)
         == Complete(invoke(DefaultLibrary, "f", [Null, Constant("10")]))
      && Execute(reg, CommandLine(DefaultLibrary, "f", ["5", "20"]), parses, invoke)
         == Complete(invoke(DefaultLibrary, "f", [Null, Null]))
  {
    var a := Parameter("a", Int32, "Int32", "System.Int32", false, None);
    var b := Parameter("b", Int32, "Int32", "System.Int32", true, Some(Constant("10")));
    var reg := [Library(DefaultLibrary, [Method("f", [a, b])])];
    assert SameIgnoringCase(DefaultLibrary, DefaultLibrary);
    assert SameIgnoringCase("f", "f");
    assert Resolve(reg, DefaultLibrary, "f") == Success((0, 0));
    assert RequiredCount([a, b]) == 1 by {
      assert [a, b][1..] == [b];
      assert [b][1..] == [];
    }
    var m1 := Materialize([a, b], ["5"], parses);
    assert m1.value == [Null, Constant("10")];
    var m2 := Materialize([a, b], ["5", "20"], parses);
    assert m2.value == [Null, Null];
  }
}

=== FILE: help.dfy ===
/**
  The signature block that `PrintHelpMessage` prints for each registered
  command: a usage line naming the command and its parameters, then one line
  per parameter with its full type name and whether it is optional.
 */
module Help {
  import opened Wrappers
  import opened Strings
  import opened Registry
  import opened ConsoleCommand
  import opened Dispatcher

  /** The command as the help lists it: bare when it belongs to the default
      library, otherwise qualified by its library. */
  function DisplayedName(library: string, command: string): string {
    if library == DefaultLibrary then command else library + "." + command
  }

  /** The placeholder shown for one parameter on the usage line. */
  function Placeholder(p: Parameter): string {
    "<" + p.name + ">"
  }

  function Placeholders(params: seq<Parameter>): seq<string> {
    seq(|params|, i requires 0 <= i < |params| => Placeholder(params[i]))
  }

  /** The placeholders as appended to the usage line, each after a space. */
  function PlaceholderText(params: seq<Parameter>): string
    decreases |params|
  {
    if |params| == 0 then "" else " " + Placeholder(params[0]) + PlaceholderText(params[1..])
  }

  /** The usage line: `command: `, then the displayed name and one placeholder
      per parameter, in declaration order, separated by single spaces. */
  function Usage(library: string, m: Method): (r: string)
    ensures r == "command: " + JoinWith([DisplayedName(library, m.name)] + Placeholders(m.parameters), ' ')
  {
    var shown := DisplayedName(library, m.name);
    PlaceholderTextJoins(shown, m.parameters);
    "command: " + (shown + PlaceholderText(m.parameters))
  }

  /** The description line of one parameter, without its newline: its name and
      full type name, then `optional` after the `; ` exactly when it is. */
  function ParameterLine(p: Parameter): (r: string)
    ensures var head := "parameter <" + p.name + ">: type = " + p.typeFullName + "; ";
      && |head| <= |r| && r[..|head|] == head
      && (p.isOptional <==> r[|head|..] == "optional")
      && (!p.isOptional <==> r == head)
  {
    "parameter <" + p.name + ">: type = " + p.typeFullName + "; " + (if p.isOptional then "optional" else "")
  }

  function ParameterLines(params: seq<Parameter>): seq<string> {
    seq(|params|, i requires 0 <= i < |params| => ParameterLine(params[i]))
  }

  /** The description lines as appended one after the other, each with its newline. */
  function ParameterBlock(params: seq<Parameter>): string
    decreases |params|
  {
    if |params| == 0 then "" else ParameterLine(params[0]) + "\n" + ParameterBlock(params[1..])
  }

  /** The signature of method `m` of `library`: the usage line, a newline, and
      the description lines. */
  function Signature(library: string, m: Method): (r: string)
    ensures |r| > 9 && r[..9] == "command: " && r[|r| - 1] == '\n'
  {
    var usage := Usage(library, m);
    var block := ParameterBlock(m.parameters);
    assert usage[..9] == "command: ";
    ParameterBlockEnd(m.parameters);
    usage + "\n" + block
  }

  lemma {:induction false} ParameterBlockEnd(params: seq<Parameter>)
    ensures |params| > 0 ==> |ParameterBlock(params)| > 0
    ensures |ParameterBlock(params)| > 0 ==> ParameterBlock(params)[|ParameterBlock(params)| - 1] == '\n'
    decreases |params|
  {
    if |params| > 0 {
      ParameterBlockEnd(params[1..]);
    }
  }

  // ---------------------------------------------------------------------------
  // Line structure
  // ---------------------------------------------------------------------------

  /** No text the signature shows contains a line break. */
  predicate SingleLineNames(library: string, m: Method) {
    && NoneIn(library, {'\n'})
    && NoneIn(m.name, {'\n'})
    && forall i :: 0 <= i < |m.parameters| ==>
         NoneIn(m.parameters[i].name, {'\n'}) && NoneIn(m.parameters[i].typeFullName, {'\n'})
  }

  lemma {:induction false} ParameterBlockIsLines(params: seq<Parameter>)
    ensures ParameterBlock(params) == Lines(ParameterLines(params))
    decreases |params|
  {
    if |params| > 0 {
      ParameterBlockIsLines(params[1..]);
      assert ParameterLines(params)[1..] == ParameterLines(params[1..]);
    }
  }

  lemma {:induction false} PlaceholderTextSingleLine(params: seq<Parameter>)
    requires forall i :: 0 <= i < |params| ==> NoneIn(params[i].name, {'\n'})
    ensures NoneIn(PlaceholderText(params), {'\n'})
    decreases |params|
  {
    if |params| > 0 {
      PlaceholderTextSingleLine(params[1..]);
    }
  }

  /** Splitting a signature at its newlines gives the usage line, one
      description line per parameter in declaration order, and the empty rest
      after the final newline. */
  lemma SignatureLines(library: string, m: Method)
    requires SingleLineNames(library, m)
    ensures Split(Signature(library, m), {'\n'})
            == [Usage(library, m)] + ParameterLines(m.parameters) + [""]
  {
    var usage := Usage(library, m);
    var lines := ParameterLines(m.parameters);
    PlaceholderTextSingleLine(m.parameters);
    assert NoneIn(usage, {'\n'});
    forall i | 0 <= i < |lines|
      ensures NoneIn(lines[i], {'\n'})
    {
      var p := m.parameters[i];
      assert lines[i] == ParameterLine(p);
    }
    ParameterBlockIsLines(m.parameters);
    assert ([usage] + lines)[1..] == lines;
    assert Signature(library, m) == Lines([usage] + lines);
    SplitLines([usage] + lines);
  }

  // ---------------------------------------------------------------------------
  // The usage line as a command line
  // ---------------------------------------------------------------------------

  /** A name the tokenizer keeps whole: no space, quote or dot. */
  predicate PlainName(s: string) {
    NoneIn(s, {' ', '"', '.'})
  }

  /** A parameter name that stays one argument: no space or quote. */
  predicate PlainParameters(params: seq<Parameter>) {
    forall i :: 0 <= i < |params| ==> NoneIn(params[i].name, {' ', '"'})
  }

  lemma {:induction false} PlaceholderTextJoins(x: string, params: seq<Parameter>)
    ensures x + PlaceholderText(params) == JoinWith([x] + Placeholders(params), ' ')
    decreases |params|
  {
    var tags := Placeholders(params);
    if |params| == 0 {
      assert [x] + tags == [x];
      assert x + "" == x;
    } else {
      var t := Placeholder(params[0]);
      var rest := PlaceholderText(params[1..]);
      PlaceholderTextJoins(t, params[1..]);
      assert [t] + Placeholders(params[1..]) == tags;
      JoinWithCons(x, tags, ' ');
      assert PlaceholderText(params) == " " + t + rest;
      assert x + (" " + t + rest) == x + [' '] + (t + rest);
    }
  }

  /** Around a single dot, the parts of a text without other dots are fixed. */
  lemma DotSplitUnique(a: string, b: string, c: string, d: string)
    requires NoneIn(a, {'.'}) && NoneIn(b, {'.'}) && NoneIn(c, {'.'}) && NoneIn(d, {'.'})
    requires a + "." + b == c + "." + d
    ensures a == c && b == d
  {
    assert JoinWith([a, b], '.') == a + "." + b;
    assert JoinWith([c, d], '.') == c + "." + d;
    JoinThenSplit([a, b], '.');
    JoinThenSplit([c, d], '.');
    assert [a, b] == [c, d];
  }

  /** A token the tokenizer and the unquoting step both keep as it is. */
  lemma PlainToken(t: string)
    requires NoneIn(t, {' ', '"'})
    ensures !OddQuotes(t) && Tokenize(t) == [t] && Unquote(t) == Success(t)
  {
    assert NoneIn(t, {' '});
    assert NoneIn(t, Quotes);
    SpaceFreeIsOneToken(t);
    CountInNone(t, Quotes);
  }

  /** The displayed name splits back into the library and the command. */
  lemma DisplayedNameSplits(library: string, command: string)
    requires PlainName(library) && PlainName(command)
    ensures NoneIn(DisplayedName(library, command), {' ', '"'})
    ensures SplitName(DisplayedName(library, command)) == (library, command)
  {
    var shown := DisplayedName(library, command);
    assert NoneIn(command, {'.'});
    CountInNone(command, {'.'});
    if library != DefaultLibrary {
      assert NoneIn(library, {'.'});
      assert NoneIn(shown, {' ', '"'});
      CountInNone(library, {'.'});
      CountInAppend(library, "." + command, {'.'});
      CountInAppend(".", command, {'.'});
      assert "."[1..] == "";
      assert CountIn(".", {'.'}) == 1;
      assert shown == library + ("." + command);
      assert CountIn(shown, {'.'}) == 1;
      var (l, c) := SplitName(shown);
      DotSplitUnique(l, c, library, command);
    }
  }

  /** Typed at the prompt, the text after `command: ` on a usage line parses to
      the listed command, with the placeholders as its arguments in order. */
  lemma UsageParses(library: string, m: Method)
    requires PlainName(library) && PlainName(m.name) && PlainParameters(m.parameters)
    ensures Parse(DisplayedName(library, m.name) + PlaceholderText(m.parameters))
            == Success(CommandLine(library, m.name, Placeholders(m.parameters)))
  {
    var shown := DisplayedName(library, m.name);
    var tags := Placeholders(m.parameters);
    var tokens := [shown] + tags;
    DisplayedNameSplits(library, m.name);
    PlaceholderTextJoins(shown, m.parameters);
    forall i | 0 <= i < |tokens|
      ensures !OddQuotes(tokens[i]) && Tokenize(tokens[i]) == [tokens[i]] && Unquote(tokens[i]) == Success(tokens[i])
    {
      if i == 0 {
        PlainToken(shown);
      } else {
        var p := m.parameters[i - 1];
        assert tokens[i] == "<" + p.name + ">";
        assert NoneIn(p.name, {' ', '"'});
        PlainToken(tokens[i]);
      }
    }
    JoinThenTokenize(tokens);
    var r := Parse(shown + PlaceholderText(m.parameters));
    assert r.Success?;
    assert r.value.arguments == tags;
  }

  /** In a registry whose names are distinct ignoring case, the registered
      names of any listed command resolve to that very command. */
  lemma ListedCommandResolves(reg: Registry, li: nat, mi: nat)
    requires WellFormed(reg)
    requires li < |reg| && mi < |reg[li].methods|
    ensures Resolve(reg, reg[li].name, reg[li].methods[mi].name) == Success((li, mi))
  {
    assert LibraryNames(reg)[li] == reg[li].name;
    FindUnique(LibraryNames(reg), reg[li].name, li);
    assert MethodNames(reg[li].methods)[mi] == reg[li].methods[mi].name;
    FindUnique(MethodNames(reg[li].methods), reg[li].methods[mi].name, mi);
  }

  /** Every usage line the help prints for a registry of plain names is a
      working command line: parsed and resolved, it reaches the listed method. */
  lemma UsageRoundTrip(reg: Registry, li: nat, mi: nat)
    requires WellFormed(reg)
    requires li < |reg| && mi < |reg[li].methods|
    requires PlainName(reg[li].name) && PlainName(reg[li].methods[mi].name)
    requires PlainParameters(reg[li].methods[mi].parameters)
    ensures var m := reg[li].methods[mi];
      var r := Parse(DisplayedName(reg[li].name, m.name) + PlaceholderText(m.parameters));
      && r.Success?
      && Resolve(reg, r.value.library, r.value.name) == Success((li, mi))
      && |r.value.arguments| == |m.parameters|
  {
    UsageParses(reg[li].name, reg[li].methods[mi]);
    ListedCommandResolves(reg, li, mi);
  }
}

=== FILE: registry.dfy ===
/**
  The command registry that `Main` builds at start-up: for every command class,
  its name and the case-insensitive dictionary of its public static methods,
  each with its ordered parameter list. Reflection is replaced by input data:
  the classes arrive as a sequence of `Library` values in discovery order.
 */
module Registry {
  import opened Wrappers
  import opened Strings

  /** `System.TypeCode`, all eighteen members. */
  datatype TypeCode =
    | Empty | Object | DBNull | Boolean | Char | SByte | Byte
    | Int16 | UInt16 | Int32 | UInt32 | Int64 | UInt64
    | Single | Double | Decimal | DateTime | String

  /** A value handed to an invoked method: null, a string, or a non-string
      compile-time default, kept abstract by its source text. */
  datatype Value = Null | Text(text: string) | Constant(literal: string)

  /** What `ParameterInfo` exposes to the shell. `typeName` is the short name of
      the type (`Int32`), `typeFullName` its full name (`System.Int32`). */
  datatype Parameter = Parameter(
    name: string,
    typeCode: TypeCode,
    typeName: string,
    typeFullName: string,
    isOptional: bool,
    defaultValue: Option<Value>)

  datatype Method = Method(name: string, parameters: seq<Parameter>)

  /** One command class: its name and its methods in reflection order. */
  datatype Library = Library(name: string, methods: seq<Method>)

  type Registry = seq<Library>

  function LibraryNames(reg: Registry): seq<string> {
    seq(|reg|, i requires 0 <= i < |reg| => reg[i].name)
  }

  function MethodNames(methods: seq<Method>): seq<string> {
    seq(|methods|, i requires 0 <= i < |methods| => methods[i].name)
  }

  /** No two names are equal when case is ignored. */
  predicate DistinctIgnoringCase(names: seq<string>) {
    forall i, j :: 0 <= i < j < |names| ==> !SameIgnoringCase(names[i], names[j])
  }

  /** What the case-insensitive dictionaries guarantee once built: library names
      are distinct ignoring case, and so are method names within each library. */
  predicate WellFormed(reg: Registry) {
    && DistinctIgnoringCase(LibraryNames(reg))
    && forall i :: 0 <= i < |reg| ==> DistinctIgnoringCase(MethodNames(reg[i].methods))
  }

  // ---------------------------------------------------------------------------
  // Building (Main)
  // ---------------------------------------------------------------------------

  /** `Dictionary.Add` throws when the key is already present. */
  datatype StartupFault = DuplicateKey(key: string)

  /** Whether `names[k]` repeats an earlier name, ignoring case. */
  predicate RepeatsEarlier(names: seq<string>, k: nat)
    requires k < |names|
  {
    exists j :: 0 <= j < k && SameIgnoringCase(names[j], names[k])
  }

  /** The first position from `i` on whose name repeats an earlier one: where a
      sequence of `Add` calls into a case-insensitive dictionary throws. */
  function FirstRepeat(names: seq<string>, i: nat): (r: Option<nat>)
    requires i <= |names|
    ensures r.Some? ==>
              && i <= r.value < |names|
              && RepeatsEarlier(names, r.value)
              && forall k :: i <= k < r.value ==> !RepeatsEarlier(names, k)
    ensures r.None? ==> forall k :: i <= k < |names| ==> !RepeatsEarlier(names, k)
    decreases |names| - i
  {
    if i == |names| then None
    else if RepeatsEarlier(names, i) then Some(i)
    else FirstRepeat(names, i + 1)
  }

  lemma NoRepeatIsDistinct(names: seq<string>)
    requires forall k :: 0 <= k < |names| ==> !RepeatsEarlier(names, k)
    ensures DistinctIgnoringCase(names)
  {
    forall i, j | 0 <= i < j < |names|
      ensures !SameIgnoringCase(names[i], names[j])
    {
      assert !RepeatsEarlier(names, j);
    }
  }

  /** The loop of `Main` from class `i` on: build the class's method dictionary,
      then add it under the class name; either step throws on a duplicate. */
  function BuildFrom(classes: seq<Library>, i: nat): (r: Result<Registry, StartupFault>)
    requires i <= |classes|
    requires forall k :: 0 <= k < i ==> !RepeatsEarlier(LibraryNames(classes), k)
    requires forall k :: 0 <= k < i ==> DistinctIgnoringCase(MethodNames(classes[k].methods))
    ensures r.Success? <==> WellFormed(classes)
    ensures r.Success? ==> r.value == classes
    decreases |classes| - i
  {
    if i == |classes| then
      NoRepeatIsDistinct(LibraryNames(classes));
      Success(classes)
    else
      var methodNames := MethodNames(classes[i].methods);
      match FirstRepeat(methodNames, 0)
      case Some(k) =>
        assert !DistinctIgnoringCase(methodNames);
        Failure(DuplicateKey(methodNames[k]))
      case None =>
        NoRepeatIsDistinct(methodNames);
        if RepeatsEarlier(LibraryNames(classes), i) then
          assert !DistinctIgnoringCase(LibraryNames(classes));
          Failure(DuplicateKey(classes[i].name))
        else BuildFrom(classes, i + 1)
  }

  /** The registry `Main` builds from the discovered command classes: the classes
      themselves when no two names clash ignoring case, otherwise the fault of
      the first clashing `Add`. */
  function Build(classes: seq<Library>): (r: Result<Registry, StartupFault>)
    ensures r.Success? <==> WellFormed(classes)
    ensures r.Success? ==> r.value == classes
  {
    BuildFrom(classes, 0)
  }

  // ---------------------------------------------------------------------------
  // Lookup
  // ---------------------------------------------------------------------------

  function FindFrom(names: seq<string>, name: string, i: nat): (r: Option<nat>)
    requires i <= |names|
    ensures r.Some? ==>
              && i <= r.value < |names|
              && SameIgnoringCase(names[r.value], name)
              && forall k :: i <= k < r.value ==> !SameIgnoringCase(names[k], name)
    ensures r.None? <==> forall k :: i <= k < |names| ==> !SameIgnoringCase(names[k], name)
    decreases |names| - i
  {
    if i == |names| then None
    else if SameIgnoringCase(names[i], name) then Some(i)
    else FindFrom(names, name, i + 1)
  }

  /** Case-insensitive lookup of a key: the position of the registered name that
      equals `name` ignoring case, or nothing when there is none. */
  function Find(names: seq<string>, name: string): (r: Option<nat>)
    ensures r.Some? ==>
              && r.value < |names|
              && SameIgnoringCase(names[r.value], name)
              && forall k :: 0 <= k < r.value ==> !SameIgnoringCase(names[k], name)
    ensures r.None? <==> forall k :: 0 <= k < |names| ==> !SameIgnoringCase(names[k], name)
  {
    FindFrom(names, name, 0)
  }

  /** In a dictionary whose keys are distinct ignoring case, lookup finds the one
      key that matches. */
  lemma FindUnique(names: seq<string>, name: string, k: nat)
    requires DistinctIgnoringCase(names)
    requires k < |names| && SameIgnoringCase(names[k], name)
    ensures Find(names, name) == Some(k)
  {
    var r := Find(names, name);
    if r.value < k {
      assert SameIgnoringCase(names[r.value], names[k]);
    }
  }

  /** Two spellings that differ only in case resolve to the same entry. */
  lemma {:induction false} FindIgnoresCase(names: seq<string>, a: string, b: string, i: nat)
    requires i <= |names|
    requires SameIgnoringCase(a, b)
    ensures FindFrom(names, a, i) == FindFrom(names, b, i)
    decreases |names| - i
  {
    if i < |names| {
      FindIgnoresCase(names, a, b, i + 1);
    }
  }
}

=== FILE: strings.dfy ===
/**
  Text helpers shared by the shell: ASCII case folding, the .NET notion of a
  white-space character, splitting and joining on separator characters,
  decimal rendering of counters and the code-point order on strings.
 */
module Strings {

  // ---------------------------------------------------------------------------
  // Case folding and white space
  // ---------------------------------------------------------------------------

  /** Lower-casing of one character, restricted to the ASCII letters. */
  function LowerChar(c: char): char {
    if 'A' <= c <= 'Z' then (c as int + 32) as char else c
  }

  function Lower(s: string): string {
    seq(|s|, i requires 0 <= i < |s| => LowerChar(s[i]))
  }

  /** Lower-casing twice changes nothing more. */
  lemma LowerIdempotent(s: string)
    ensures Lower(Lower(s)) == Lower(s)
  {
  }

  /** Two names denote the same key of a case-insensitive dictionary. */
  predicate SameIgnoringCase(a: string, b: string) {
    Lower(a) == Lower(b)
  }

  /** `char.IsWhiteSpace`: the Unicode space separators, the line and paragraph
      separators, and the control characters U+0009..U+000D and U+0085. */
  predicate IsWhiteSpace(c: char) {
    var n := c as int;
    (9 <= n <= 13) || n == 0x20 || n == 0x85 || n == 0xA0 || n == 0x1680
    || (0x2000 <= n <= 0x200A) || n == 0x2028 || n == 0x2029 || n == 0x202F
    || n == 0x205F || n == 0x3000
  }

  /** `string.IsNullOrWhiteSpace` for a non-null string. */
  predicate IsBlank(s: string) {
    forall i :: 0 <= i < |s| ==> IsWhiteSpace(s[i])
  }

  // ---------------------------------------------------------------------------
  // Counting, splitting, joining
  // ---------------------------------------------------------------------------

  /** Number of characters of `s` that belong to `cs`. */
  function CountIn(s: string, cs: set<char>): nat
    decreases |s|
  {
    if |s| == 0 then 0 else (if s[0] in cs then 1 else 0) + CountIn(s[1..], cs)
  }

  predicate NoneIn(s: string, cs: set<char>) {
    forall i :: 0 <= i < |s| ==> s[i] !in cs
  }

  lemma CountInAppend(a: string, b: string, cs: set<char>)
    ensures CountIn(a + b, cs) == CountIn(a, cs) + CountIn(b, cs)
    decreases |a|
  {
    if |a| > 0 {
      assert (a + b)[1..] == a[1..] + b;
      CountInAppend(a[1..], b, cs);
    } else {
      assert a + b == b;
    }
  }

  lemma CountInNone(s: string, cs: set<char>)
    requires NoneIn(s, cs)
    ensures CountIn(s, cs) == 0
    decreases |s|
  {
    if |s| > 0 {
      CountInNone(s[1..], cs);
    }
  }

  /** `String.Split(char[])`: the pieces between separator characters, in order,
      empty pieces included. There is always one more piece than separators,
      and no piece contains a separator. */
  function Split(s: string, seps: set<char>): (r: seq<string>)
    ensures |r| == CountIn(s, seps) + 1
    ensures forall i :: 0 <= i < |r| ==> NoneIn(r[i], seps)
    decreases |s|
  {
    if |s| == 0 then [""]
    else
      var rest := Split(s[1..], seps);
      if s[0] in seps then [""] + rest
      else [[s[0]] + rest[0]] + rest[1..]
  }

  /** `String.Join` with a one-character separator. */
  function JoinWith(parts: seq<string>, sep: char): string
    decreases |parts|
  {
    if |parts| == 0 then ""
    else if |parts| == 1 then parts[0]
    else parts[0] + [sep] + JoinWith(parts[1..], sep)
  }

  lemma JoinWithCons(x: string, rest: seq<string>, sep: char)
    requires |rest| >= 1
    ensures JoinWith([x] + rest, sep) == x + [sep] + JoinWith(rest, sep)
  {
    assert ([x] + rest)[1..] == rest;
  }

  /** Prefixing a character to the first part prefixes it to the join. */
  lemma JoinWithFuse(c: char, rest: seq<string>, sep: char)
    requires |rest| >= 1
    ensures JoinWith([[c] + rest[0]] + rest[1..], sep) == [c] + JoinWith(rest, sep)
  {
    var parts := [[c] + rest[0]] + rest[1..];
    if |rest| > 1 {
      assert parts[1..] == rest[1..];
    }
  }

  function Concat(parts: seq<string>): string
    decreases |parts|
  {
    if |parts| == 0 then "" else parts[0] + Concat(parts[1..])
  }

  lemma ConcatAppend(a: seq<string>, b: seq<string>)
    ensures Concat(a + b) == Concat(a) + Concat(b)
    decreases |a|
  {
    if |a| > 0 {
      assert (a + b)[1..] == a[1..] + b;
      ConcatAppend(a[1..], b);
    } else {
      assert a + b == b;
    }
  }

  /** Splitting text that has no separator in its first part `a` just glues `a`
      onto the first piece of the rest. */
  lemma {:induction false} SplitPrefixFree(a: string, t: string, seps: set<char>)
    requires NoneIn(a, seps)
    ensures Split(a + t, seps) == [a + Split(t, seps)[0]] + Split(t, seps)[1..]
    decreases |a|
  {
    if |a| > 0 {
      assert (a + t)[0] == a[0];
      assert (a + t)[1..] == a[1..] + t;
      SplitPrefixFree(a[1..], t, seps);
      assert [a[0]] + (a[1..] + Split(t, seps)[0]) == a + Split(t, seps)[0];
    } else {
      var st := Split(t, seps);
      assert a + t == t;
      assert a + st[0] == st[0];
      assert st == [st[0]] + st[1..];
    }
  }

  /** The pieces of a concatenation from the pieces of its two parts: the
      last piece of the first part and the first piece of the second join. */
  function Fuse(sx: seq<string>, sy: seq<string>): (r: seq<string>)
    requires |sx| >= 1 && |sy| >= 1
    ensures |r| == |sx| + |sy| - 1
  {
    sx[..|sx| - 1] + [sx[|sx| - 1] + sy[0]] + sy[1..]
  }

  /** Fusing after pieces that start with an empty one. */
  lemma FuseAfterSeparator(a: seq<string>, sy: seq<string>)
    requires |a| >= 1 && |sy| >= 1
    ensures Fuse([""] + a, sy) == [""] + Fuse(a, sy)
  {
    var sx := [""] + a;
    assert sx[..|sx| - 1] == [""] + a[..|a| - 1];
  }

  /** Fusing after pieces whose first one starts with the character `c`. */
  lemma FuseAfterChar(c: char, a: seq<string>, sy: seq<string>)
    requires |a| >= 1 && |sy| >= 1
    ensures var r := Fuse(a, sy); Fuse([[c] + a[0]] + a[1..], sy) == [[c] + r[0]] + r[1..]
  {
    var sx := [[c] + a[0]] + a[1..];
    var r := Fuse(a, sy);
    if |a| == 1 {
      assert r == [a[0] + sy[0]] + sy[1..];
      assert sx[..|sx| - 1] == [];
      assert [c] + (a[0] + sy[0]) == ([c] + a[0]) + sy[0];
    } else {
      assert r[0] == a[0];
      assert r[1..] == a[1..|a| - 1] + [a[|a| - 1] + sy[0]] + sy[1..];
      assert sx[..|sx| - 1] == [[c] + a[0]] + a[1..|a| - 1];
    }
  }

  /** Fusing with pieces that start with an empty one appends the rest. */
  lemma FuseBeforeSeparator(sx: seq<string>, sy: seq<string>)
    requires |sx| >= 1
    ensures Fuse(sx, [""] + sy) == sx + sy
  {
    var n := |sx|;
    assert ([""] + sy)[0] == "" && ([""] + sy)[1..] == sy;
    assert sx[n - 1] + "" == sx[n - 1];
    assert sx[..n - 1] + [sx[n - 1]] == sx;
  }

  /** Fusing onto the single empty piece changes nothing. */
  lemma FuseAfterEmpty(sy: seq<string>)
    requires |sy| >= 1
    ensures Fuse([""], sy) == sy
  {
    assert [""][..0] == [];
    assert "" + sy[0] == sy[0];
    assert sy == [sy[0]] + sy[1..];
  }

  /** Text without a separator is a single piece. */
  lemma SplitNoSeparator(w: string, seps: set<char>)
    requires NoneIn(w, seps)
    ensures Split(w, seps) == [w]
  {
    SplitPrefixFree(w, "", seps);
    assert w + "" == w;
  }

  /** How `Split` distributes over concatenation: the last piece of `x` and the
      first piece of `y` fuse, every other piece is kept. */
  lemma {:induction false} SplitAppend(x: string, y: string, seps: set<char>)
    ensures Split(x + y, seps) == Fuse(Split(x, seps), Split(y, seps))
    decreases |x|
  {
    var sx, sy := Split(x, seps), Split(y, seps);
    if |x| == 0 {
      assert x + y == y;
      assert sx == [""];
      FuseAfterEmpty(sy);
    } else {
      assert (x + y)[0] == x[0];
      assert (x + y)[1..] == x[1..] + y;
      SplitAppend(x[1..], y, seps);
      var a := Split(x[1..], seps);
      if x[0] in seps {
        FuseAfterSeparator(a, sy);
      } else {
        FuseAfterChar(x[0], a, sy);
      }
    }
  }

  /** Text that is empty or ends in a separator leaves an empty last piece. */
  lemma SplitEndsEmpty(x: string, seps: set<char>)
    requires |x| == 0 || x[|x| - 1] in seps
    ensures var sx := Split(x, seps); sx[|sx| - 1] == ""
  {
    if |x| > 0 {
      var c := x[|x| - 1];
      var y := x[..|x| - 1];
      assert x == y + [c];
      SplitAppend(y, [c], seps);
      assert [c][1..] == "";
      assert Split([c], seps) == ["", ""];
    }
  }

  /** A trailing separator adds one empty piece. */
  lemma SplitAppendSeparator(x: string, c: char, seps: set<char>)
    requires c in seps
    ensures Split(x + [c], seps) == Split(x, seps) + [""]
  {
    var sx := Split(x, seps);
    SplitAppend(x, [c], seps);
    assert [c][1..] == "";
    assert Split([c], seps) == ["", ""];
    assert sx[|sx| - 1] + "" == sx[|sx| - 1];
    assert sx[..|sx| - 1] + [sx[|sx| - 1]] == sx;
  }

  /** After an empty last piece nothing fuses: the pieces of `y` follow. */
  lemma SplitAfterEmptyLast(x: string, y: string, seps: set<char>)
    requires var sx := Split(x, seps); sx[|sx| - 1] == ""
    ensures var sx := Split(x, seps);
      Split(x + y, seps) == sx[..|sx| - 1] + Split(y, seps)
  {
    SplitAppend(x, y, seps);
    FuseAfterEmptyLast(Split(x, seps), Split(y, seps));
  }

  lemma FuseAfterEmptyLast(sx: seq<string>, sy: seq<string>)
    requires |sx| >= 1 && |sy| >= 1 && sx[|sx| - 1] == ""
    ensures Fuse(sx, sy) == sx[..|sx| - 1] + sy
  {
    assert sx[|sx| - 1] + sy[0] == sy[0];
    assert [sy[0]] + sy[1..] == sy;
  }

  /** Each text lower-cased. */
  function LowerEach(texts: seq<string>): seq<string> {
    seq(|texts|, i requires 0 <= i < |texts| => Lower(texts[i]))
  }

  lemma LowerCons(s: string)
    requires |s| > 0
    ensures Lower(s) == [LowerChar(s[0])] + Lower(s[1..])
  {
  }

  /** Lower-casing commutes with splitting on separators that are not letters. */
  lemma {:induction false} SplitLower(s: string, seps: set<char>)
    requires forall c :: 'A' <= c <= 'Z' ==> c !in seps && LowerChar(c) !in seps
    ensures Split(Lower(s), seps) == LowerEach(Split(s, seps))
    decreases |s|
  {
    if |s| == 0 {
      assert Lower(s) == "";
      assert LowerEach([""]) == [""];
    } else {
      SplitLower(s[1..], seps);
      var rest := Split(s[1..], seps);
      var lowered := LowerEach(rest);
      LowerCons(s);
      var c := LowerChar(s[0]);
      assert c in seps <==> s[0] in seps;
      SplitCons(c, Lower(s[1..]), seps);
      LowerEachCons(s[0], rest);
    }
  }

  /** Lower-casing the pieces of one step of `Split`. */
  lemma LowerEachCons(c: char, rest: seq<string>)
    requires |rest| >= 1
    ensures LowerEach([""] + rest) == [""] + LowerEach(rest)
    ensures var lowered := LowerEach(rest);
      LowerEach([[c] + rest[0]] + rest[1..]) == [[LowerChar(c)] + lowered[0]] + lowered[1..]
  {
    assert Lower("") == "";
    LowerCons([c] + rest[0]);
    assert ([c] + rest[0])[1..] == rest[0];
  }

  lemma SplitCons(c: char, s: string, seps: set<char>)
    ensures var rest := Split(s, seps);
      Split([c] + s, seps) == if c in seps then [""] + rest else [[c] + rest[0]] + rest[1..]
  {
    assert ([c] + s)[0] == c;
    assert ([c] + s)[1..] == s;
  }

  /** Joining the pieces of a split on one character gives the text back. */
  lemma {:induction false} SplitThenJoin(s: string, c: char)
    ensures JoinWith(Split(s, {c}), c) == s
    decreases |s|
  {
    if |s| > 0 {
      var rest := Split(s[1..], {c});
      SplitThenJoin(s[1..], c);
      assert s == [s[0]] + s[1..];
      if s[0] == c {
        JoinWithCons("", rest, c);
        assert "" + [c] == [c];
      } else {
        JoinWithFuse(s[0], rest, c);
      }
    }
  }

  /** Splitting a join of separator-free parts gives the parts back. */
  lemma {:induction false} JoinThenSplit(parts: seq<string>, c: char)
    requires |parts| >= 1
    requires forall i :: 0 <= i < |parts| ==> NoneIn(parts[i], {c})
    ensures Split(JoinWith(parts, c), {c}) == parts
    decreases |parts|
  {
    if |parts| == 1 {
      SplitPrefixFree(parts[0], "", {c});
      assert parts[0] + "" == parts[0];
    } else {
      var tail := JoinWith(parts[1..], c);
      JoinThenSplit(parts[1..], c);
      assert JoinWith(parts, c) == parts[0] + ([c] + tail);
      SplitPrefixFree(parts[0], [c] + tail, {c});
      assert ([c] + tail)[1..] == tail;
      assert ([c] + tail)[0] == c;
      assert Split([c] + tail, {c}) == [""] + Split(tail, {c});
      assert Split([c] + tail, {c}) == [""] + parts[1..];
      assert parts[0] + "" == parts[0];
      assert parts == [parts[0]] + parts[1..];
    }
  }

  /** Text written line by line: each body followed by a newline. */
  function Lines(bodies: seq<string>): string
    decreases |bodies|
  {
    if |bodies| == 0 then "" else bodies[0] + "\n" + Lines(bodies[1..])
  }

  /** Splitting line-by-line text on the newline gives the line bodies back,
      followed by the empty piece after the final newline. */
  lemma {:induction false} SplitLines(bodies: seq<string>)
    requires forall i :: 0 <= i < |bodies| ==> NoneIn(bodies[i], {'\n'})
    ensures Split(Lines(bodies), {'\n'}) == bodies + [""]
    decreases |bodies|
  {
    if |bodies| > 0 {
      var rest := Lines(bodies[1..]);
      SplitLines(bodies[1..]);
      assert Lines(bodies) == bodies[0] + ("\n" + rest);
      SplitPrefixFree(bodies[0], "\n" + rest, {'\n'});
      assert ("\n" + rest)[0] == '\n';
      assert ("\n" + rest)[1..] == rest;
      assert Split("\n" + rest, {'\n'}) == [""] + Split(rest, {'\n'});
      assert bodies[0] + "" == bodies[0];
      assert bodies == [bodies[0]] + bodies[1..];
    }
  }

  // ---------------------------------------------------------------------------
  // Decimal rendering (`int.ToString()` / `uint.ToString()` of a non-negative value)
  // ---------------------------------------------------------------------------

  predicate IsDigit(c: char) {
    '0' <= c <= '9'
  }

  function DigitChar(d: nat): char
    requires d < 10
  {
    ('0' as int + d) as char
  }

  /** Decimal digits of `n`, most significant first, without leading zeros. */
  function NatToString(n: nat): (r: string)
    ensures |r| >= 1
    ensures forall i :: 0 <= i < |r| ==> IsDigit(r[i])
    ensures |r| > 1 ==> r[0] != '0'
    decreases n
  {
    if n < 10 then [DigitChar(n)] else NatToString(n / 10) + [DigitChar(n % 10)]
  }

  /** The number a string of decimal digits denotes. */
  function DigitsValue(s: string): nat
    requires forall i :: 0 <= i < |s| ==> IsDigit(s[i])
    decreases |s|
  {
    if |s| == 0 then 0
    else
      assert IsDigit(s[|s| - 1]);
      10 * DigitsValue(s[..|s| - 1]) + (s[|s| - 1] as int - '0' as int)
  }

  /** Reading the rendered digits back yields the number. */
  lemma {:induction false} DecimalRoundTrip(n: nat)
    ensures DigitsValue(NatToString(n)) == n
    decreases n
  {
    if n >= 10 {
      var r := NatToString(n);
      DecimalRoundTrip(n / 10);
      assert r[..|r| - 1] == NatToString(n / 10);
    }
  }

  // ---------------------------------------------------------------------------
  // Code-point (character-by-character) order
  // ---------------------------------------------------------------------------

  /** `a` sorts strictly before `b`: a proper prefix, or smaller at the first
      differing character. */
  predicate Less(a: string, b: string)
    decreases |a|
  {
    if |a| == 0 then |b| > 0
    else |b| > 0 && (a[0] < b[0] || (a[0] == b[0] && Less(a[1..], b[1..])))
  }

  lemma {:induction false} LessIrreflexive(a: string)
    ensures !Less(a, a)
    decreases |a|
  {
    if |a| > 0 {
      LessIrreflexive(a[1..]);
    }
  }

  lemma {:induction false} LessTransitive(a: string, b: string, c: string)
    requires Less(a, b) && Less(b, c)
    ensures Less(a, c)
    decreases |a|
  {
    if |a| > 0 && a[0] == b[0] && b[0] == c[0] {
      LessTransitive(a[1..], b[1..], c[1..]);
    }
  }

  lemma {:induction false} LessTotal(a: string, b: string)
    requires a != b
    ensures Less(a, b) || Less(b, a)
    decreases |a|
  {
    if |a| > 0 && |b| > 0 && a[0] == b[0] {
      assert a == [a[0]] + a[1..] && b == [b[0]] + b[1..];
      LessTotal(a[1..], b[1..]);
    }
  }
}

=== FILE: text_extraction.dfy ===
/**
  `ExtractViewableText` and `AppendNodeText`: the text a reader sees on a
  page, gathered by a pre-order walk of the parsed document that skips
  `script` and `style` subtrees. The parsed document is an abstract node tree;
  building it from markup is not part of this model.
 */
module TextExtraction {
  import opened Strings

  datatype NodeType = Document | Element | Comment | Text

  /** A node of the parsed document: its name (`script`, `p`, `#text`, ...),
      its kind, the text of a text node, and its children in document order. */
  datatype Node = Node(name: string, nodeType: NodeType, text: string, children: seq<Node>)

  /** The characters after which no separating space is appended. */
  const Breaks: set<char> := {'\t', '\n', ' ', '\r'}

  /** A node whose whole subtree is skipped. */
  predicate Hidden(n: Node) {
    n.name == "script" || n.name == "style"
  }

  /** What `AppendNodeText` appends for a text node: nothing for blank text,
      otherwise the text, followed by one space unless it already ends in a
      tab, newline, space or carriage return. */
  function AppendedText(text: string): (r: string)
    ensures r == "" <==> IsBlank(text)
    ensures !IsBlank(text) ==>
              && |text| <= |r| <= |text| + 1
              && r[..|text|] == text
              && r[|r| - 1] in Breaks
    ensures !IsBlank(text) && text[|text| - 1] in Breaks ==> r == text
    ensures !IsBlank(text) && text[|text| - 1] !in Breaks ==> r == text + " "
  {
    if IsBlank(text) then ""
    else if text[|text| - 1] in Breaks then text
    else text + " "
  }

  /** The text a subtree adds, in pre-order: a hidden node adds nothing, not
      even for its descendants; a text node adds its own text first, then its
      children add theirs in order. */
  function Viewable(n: Node): (r: string)
    ensures Hidden(n) ==> r == ""
    ensures r == "" || r[|r| - 1] in Breaks
    decreases n
  {
    if Hidden(n) then ""
    else (if n.nodeType == Text then AppendedText(n.text) else "") + ViewableAll(n.children)
  }

  function ViewableAll(ns: seq<Node>): (r: string)
    ensures r == "" || r[|r| - 1] in Breaks
    decreases ns
  {
    if |ns| == 0 then "" else Viewable(ns[0]) + ViewableAll(ns[1..])
  }

  /** `ExtractViewableText` of the document node: nothing for a hidden root,
      and otherwise text that is empty or ends in a break, so that no word of
      one text node runs into the next. */
  function ExtractViewableText(root: Node): (r: string)
    ensures Hidden(root) ==> r == ""
    ensures r == "" || r[|r| - 1] in Breaks
  {
    Viewable(root)
  }

  // ---------------------------------------------------------------------------
  // Reference definition: the visible text nodes
  // ---------------------------------------------------------------------------

  /** The texts of the text nodes outside hidden subtrees, in pre-order. */
  function VisibleTexts(n: Node): seq<string>
    decreases n
  {
    if Hidden(n) then []
    else (if n.nodeType == Text then [n.text] else []) + VisibleTextsAll(n.children)
  }

  function VisibleTextsAll(ns: seq<Node>): seq<string>
    decreases ns
  {
    if |ns| == 0 then [] else VisibleTexts(ns[0]) + VisibleTextsAll(ns[1..])
  }

  /** The texts of all text nodes, hidden or not, in pre-order. */
  function AllTexts(n: Node): seq<string>
    decreases n
  {
    (if n.nodeType == Text then [n.text] else []) + AllTextsAll(n.children)
  }

  function AllTextsAll(ns: seq<Node>): seq<string>
    decreases ns
  {
    if |ns| == 0 then [] else AllTexts(ns[0]) + AllTextsAll(ns[1..])
  }

  /** No node of the subtree is named `script` or `style`. */
  predicate NoHidden(n: Node)
    decreases n
  {
    !Hidden(n) && NoHiddenAll(n.children)
  }

  predicate NoHiddenAll(ns: seq<Node>)
    decreases ns
  {
    |ns| == 0 || (NoHidden(ns[0]) && NoHiddenAll(ns[1..]))
  }

  /** The piece each text contributes, in order. */
  function AppendedTexts(texts: seq<string>): (r: seq<string>)
    ensures |r| == |texts|
  {
    seq(|texts|, i requires 0 <= i < |texts| => AppendedText(texts[i]))
  }

  lemma AppendedTextsAppend(a: seq<string>, b: seq<string>)
    ensures AppendedTexts(a + b) == AppendedTexts(a) + AppendedTexts(b)
  {
  }

  /** The extracted text is the pieces of the visible text nodes, in
      pre-order, written one after the other. */
  lemma {:induction false} ViewableIsVisibleTexts(n: Node)
    ensures Viewable(n) == Concat(AppendedTexts(VisibleTexts(n)))
    decreases n
  {
    if !Hidden(n) {
      var own := if n.nodeType == Text then [n.text] else [];
      ViewableAllIsVisibleTexts(n.children);
      AppendedTextsAppend(own, VisibleTextsAll(n.children));
      ConcatAppend(AppendedTexts(own), AppendedTexts(VisibleTextsAll(n.children)));
      if n.nodeType == Text {
        assert AppendedTexts(own) == [AppendedText(n.text)];
        assert Concat([AppendedText(n.text)]) == AppendedText(n.text) + Concat([]);
      } else {
        assert AppendedTexts(own) == [];
      }
    } else {
      assert AppendedTexts([]) == [];
    }
  }

  lemma {:induction false} ViewableAllIsVisibleTexts(ns: seq<Node>)
    ensures ViewableAll(ns) == Concat(AppendedTexts(VisibleTextsAll(ns)))
    decreases ns
  {
    if |ns| == 0 {
      assert AppendedTexts([]) == [];
    } else {
      ViewableIsVisibleTexts(ns[0]);
      ViewableAllIsVisibleTexts(ns[1..]);
      AppendedTextsAppend(VisibleTexts(ns[0]), VisibleTextsAll(ns[1..]));
      ConcatAppend(AppendedTexts(VisibleTexts(ns[0])), AppendedTexts(VisibleTextsAll(ns[1..])));
    }
  }

  /** Without `script` or `style` nodes every text node is visible. */
  lemma {:induction false} NoHiddenShowsAll(n: Node)
    requires NoHidden(n)
    ensures VisibleTexts(n) == AllTexts(n)
    decreases n
  {
    NoHiddenShowsAllOf(n.children);
  }

  lemma {:induction false} NoHiddenShowsAllOf(ns: seq<Node>)
    requires NoHiddenAll(ns)
    ensures VisibleTextsAll(ns) == AllTextsAll(ns)
    decreases ns
  {
    if |ns| > 0 {
      NoHiddenShowsAll(ns[0]);
      NoHiddenShowsAllOf(ns[1..]);
    }
  }

  /** A `script` or `style` child may hold anything: replacing it by any other
      hidden subtree leaves the extracted text unchanged. */
  lemma {:induction false} HiddenChildIgnored(ns: seq<Node>, i: nat, other: Node)
    requires i < |ns| && Hidden(ns[i]) && Hidden(other)
    ensures ViewableAll(ns[i := other]) == ViewableAll(ns)
    decreases |ns|
  {
    if i > 0 {
      HiddenChildIgnored(ns[1..], i - 1, other);
      assert ns[i := other][1..] == ns[1..][i - 1 := other];
    } else {
      assert ns[i := other][1..] == ns[1..];
    }
  }
}

=== FILE: word_tally.dfy ===
/**
  The counting part of `DefaultCommands.CountWords`: split the viewable text
  on a fixed set of separator characters, skip blank pieces, lower-case the
  rest, count each distinct word in a sorted dictionary and render one
  `word - count` line per entry in key order.
 */
module WordTally {
  import opened Wrappers
  import opened Strings
  import opened TextExtraction

  /** The eighteen characters the text is split on. */
  const Separators: set<char> :=
    {'\\', '/', ' ', ',', '.', '!', '?', '"', '\'', ';', ':', '[', ']', '(', ')', '\n', '\r', '\t'}

  // ---------------------------------------------------------------------------
  // Words
  // ---------------------------------------------------------------------------

  /** A lower-cased word: lower-casing it again changes nothing. */
  predicate IsKey(w: string) {
    Lower(w) == w
  }

  /** The counted words among `pieces`, in order: every non-blank piece,
      lower-cased. */
  function Keep(pieces: seq<string>): (r: seq<string>)
    ensures |r| <= |pieces|
    ensures forall i :: 0 <= i < |r| ==> !IsBlank(r[i]) && IsKey(r[i])
    ensures (forall i :: 0 <= i < |pieces| ==> NoneIn(pieces[i], Separators)) ==>
              forall i :: 0 <= i < |r| ==> NoneIn(r[i], Separators)
    decreases |pieces|
  {
    if |pieces| == 0 then []
    else
      var p := pieces[0];
      LowerIdempotent(p);
      LowerKeepsBlank(p);
      LowerKeepsSeparators(p);
      (if IsBlank(p) then [] else [Lower(p)]) + Keep(pieces[1..])
  }

  /** No separator is a letter, before or after lower-casing. */
  lemma SeparatorsAreNotLetters()
    ensures forall c :: 'A' <= c <= 'Z' ==> c !in Separators && LowerChar(c) !in Separators
  {
  }

  lemma LowerCharKeeps(c: char)
    ensures IsWhiteSpace(LowerChar(c)) <==> IsWhiteSpace(c)
    ensures LowerChar(c) in Separators <==> c in Separators
  {
    SeparatorsAreNotLetters();
  }

  lemma LowerKeepsBlank(s: string)
    ensures IsBlank(Lower(s)) <==> IsBlank(s)
  {
    forall i | 0 <= i < |s|
      ensures IsWhiteSpace(Lower(s)[i]) <==> IsWhiteSpace(s[i])
    {
      LowerCharKeeps(s[i]);
    }
  }

  lemma LowerKeepsSeparators(s: string)
    ensures NoneIn(Lower(s), Separators) <==> NoneIn(s, Separators)
  {
    forall i | 0 <= i < |s|
      ensures Lower(s)[i] in Separators <==> s[i] in Separators
    {
      LowerCharKeeps(s[i]);
    }
  }

  /** The words of a text, in order of appearance. */
  function Words(text: string): (r: seq<string>)
    ensures forall i :: 0 <= i < |r| ==> !IsBlank(r[i]) && IsKey(r[i]) && NoneIn(r[i], Separators)
  {
    Keep(Split(text, Separators))
  }

  /** Pieces that are all non-blank are all kept, lower-cased, in order. */
  lemma {:induction false} KeepNonBlank(pieces: seq<string>)
    requires forall i :: 0 <= i < |pieces| ==> !IsBlank(pieces[i])
    ensures Keep(pieces) == LowerEach(pieces)
    decreases |pieces|
  {
    if |pieces| > 0 {
      KeepNonBlank(pieces[1..]);
      assert LowerEach(pieces) == [Lower(pieces[0])] + LowerEach(pieces[1..]);
    }
  }

  /** A text without separators is one piece: no word when it is blank,
      otherwise exactly itself, lower-cased. */
  lemma WordsOfPiece(w: string)
    requires NoneIn(w, Separators)
    ensures Words(w) == if IsBlank(w) then [] else [Lower(w)]
  {
    SplitNoSeparator(w, Separators);
    assert [w][1..] == [];
  }

  /** A separator on its own holds no word. */
  lemma WordsOfSeparator(c: char)
    requires c in Separators
    ensures Words([c]) == []
  {
    assert [c][1..] == "";
    assert Split([c], Separators) == ["", ""];
    assert ["", ""][1..] == [""];
    KeepEmptyPiece();
  }

  /** A separator after a text adds no word and fuses with nothing. */
  lemma WordsBeforeSeparator(t: string, c: char)
    requires c in Separators
    ensures Words(t + [c]) == Words(t)
  {
    SplitAppendSeparator(t, c, Separators);
    KeepAppend(Split(t, Separators), [""]);
    KeepEmptyPiece();
  }

  /** Non-blank, separator-free words written with a separator between them
      are counted back one by one, lower-cased, in order. */
  lemma {:induction false} WordsOfJoin(ws: seq<string>, c: char)
    requires c in Separators
    requires forall i :: 0 <= i < |ws| ==> !IsBlank(ws[i]) && NoneIn(ws[i], Separators)
    ensures Words(JoinWith(ws, c)) == LowerEach(ws)
    decreases |ws|
  {
    if |ws| == 0 {
      WordsOfPiece("");
    } else if |ws| == 1 {
      WordsOfPiece(ws[0]);
    } else {
      JoinWithCons(ws[0], ws[1..], c);
      WordsOfJoin(ws[1..], c);
      WordThenSeparator(ws[0], c, JoinWith(ws[1..], c));
      assert LowerEach(ws) == [Lower(ws[0])] + LowerEach(ws[1..]);
    }
  }

  lemma WordThenSeparator(w: string, c: char, rest: string)
    requires c in Separators && !IsBlank(w) && NoneIn(w, Separators)
    ensures Words(w + [c] + rest) == [Lower(w)] + Words(rest)
  {
    WordsAppend(w + [c], rest);
    WordsBeforeSeparator(w, c);
    WordsOfPiece(w);
  }

  lemma {:induction false} KeepAppend(a: seq<string>, b: seq<string>)
    ensures Keep(a + b) == Keep(a) + Keep(b)
    decreases |a|
  {
    if |a| == 0 {
      assert a + b == b;
    } else {
      assert (a + b)[1..] == a[1..] + b;
      KeepAppend(a[1..], b);
    }
  }

  lemma KeepEmptyPiece()
    ensures Keep([""]) == []
  {
    assert IsBlank("");
    assert [""][1..] == [];
  }

  /** Text ending in a separator never fuses a word with the text after it:
      the words of the whole are the words of the parts, in order. */
  lemma WordsAppend(x: string, y: string)
    requires |x| == 0 || x[|x| - 1] in Separators
    ensures Words(x + y) == Words(x) + Words(y)
  {
    var sx, sy := Split(x, Separators), Split(y, Separators);
    SplitEndsEmpty(x, Separators);
    SplitAfterEmptyLast(x, y, Separators);
    KeepSplice(sx, sy);
    assert Split(x + y, Separators) == sx[..|sx| - 1] + sy;
  }

  /** Dropping an empty last piece before more pieces drops no word. */
  lemma KeepSplice(sx: seq<string>, sy: seq<string>)
    requires |sx| >= 1 && sx[|sx| - 1] == ""
    ensures Keep(sx[..|sx| - 1] + sy) == Keep(sx) + Keep(sy)
  {
    var front := sx[..|sx| - 1];
    assert sx == front + [""];
    KeepDropEmpty(front, sy);
  }

  lemma KeepDropEmpty(front: seq<string>, sy: seq<string>)
    ensures Keep(front + sy) == Keep(front + [""]) + Keep(sy)
  {
    KeepAppend(front, sy);
    KeepAppend(front, [""]);
    KeepEmptyPiece();
    assert Keep(front) + [] == Keep(front);
  }

  /** Every piece of a blank text is blank. */
  lemma {:induction false} SplitBlank(t: string)
    requires IsBlank(t)
    ensures forall i :: 0 <= i < |Split(t, Separators)| ==> IsBlank(Split(t, Separators)[i])
    decreases |t|
  {
    if |t| > 0 {
      SplitBlank(t[1..]);
      var rest := Split(t[1..], Separators);
      if t[0] !in Separators {
        assert IsBlank([t[0]] + rest[0]);
      }
    }
  }

  lemma {:induction false} KeepBlank(pieces: seq<string>)
    requires forall i :: 0 <= i < |pieces| ==> IsBlank(pieces[i])
    ensures Keep(pieces) == []
    decreases |pieces|
  {
    if |pieces| > 0 {
      KeepBlank(pieces[1..]);
    }
  }

  /** The piece `AppendNodeText` writes for a text holds exactly the words of
      that text: a blank text holds none, and the appended space adds none. */
  lemma AppendedTextWords(t: string)
    ensures Words(AppendedText(t)) == Words(t)
  {
    if IsBlank(t) {
      SplitBlank(t);
      KeepBlank(Split(t, Separators));
      KeepEmptyPiece();
    } else if t[|t| - 1] !in Breaks {
      assert AppendedText(t) == t + [' '];
      SplitAppendSeparator(t, ' ', Separators);
      KeepAppend(Split(t, Separators), [""]);
      KeepEmptyPiece();
    }
  }

  /** The words of each text in turn. */
  function WordsOfEach(texts: seq<string>): seq<string>
    decreases |texts|
  {
    if |texts| == 0 then [] else Words(texts[0]) + WordsOfEach(texts[1..])
  }

  lemma {:induction false} WordsOfPieces(texts: seq<string>)
    ensures Words(Concat(AppendedTexts(texts))) == WordsOfEach(texts)
    decreases |texts|
  {
    if |texts| == 0 {
      assert AppendedTexts(texts) == [];
      KeepEmptyPiece();
    } else {
      var pieces := AppendedTexts(texts);
      WordsOfPieces(texts[1..]);
      assert pieces[1..] == AppendedTexts(texts[1..]);
      var first := AppendedText(texts[0]);
      assert pieces[0] == first;
      WordsAppend(first, Concat(pieces[1..]));
      AppendedTextWords(texts[0]);
    }
  }

  /** The words of the extracted text are the words of the visible text
      nodes, node by node in document order: no word spans two nodes, and
      nothing under `script` or `style` is counted. */
  lemma WordsOfViewable(root: Node)
    ensures Words(ExtractViewableText(root)) == WordsOfEach(VisibleTexts(root))
  {
    ViewableIsVisibleTexts(root);
    WordsOfPieces(VisibleTexts(root));
  }

  lemma {:induction false} KeepLower(pieces: seq<string>)
    ensures Keep(LowerEach(pieces)) == Keep(pieces)
    decreases |pieces|
  {
    if |pieces| > 0 {
      KeepLower(pieces[1..]);
      assert LowerEach(pieces)[1..] == LowerEach(pieces[1..]);
      LowerIdempotent(pieces[0]);
      LowerKeepsBlank(pieces[0]);
    }
  }

  /** Counting ignores case: texts that differ only in case have the same
      words. */
  lemma WordsIgnoreCase(a: string, b: string)
    requires SameIgnoringCase(a, b)
    ensures Words(a) == Words(b)
  {
    SeparatorsAreNotLetters();
    SplitLower(a, Separators);
    SplitLower(b, Separators);
    KeepLower(Split(a, Separators));
    KeepLower(Split(b, Separators));
  }

  // ---------------------------------------------------------------------------
  // The sorted dictionary
  // ---------------------------------------------------------------------------

  /** One dictionary entry: a word and its counter. */
  datatype Entry = Entry(key: string, count: nat)

  /** Keys strictly ascending: sorted, and no key twice. */
  predicate Sorted(t: seq<Entry>) {
    forall i, j :: 0 <= i < j < |t| ==> Less(t[i].key, t[j].key)
  }

  predicate Positive(t: seq<Entry>) {
    forall i :: 0 <= i < |t| ==> t[i].count >= 1
  }

  /** The counter of `w`, zero when `w` is not a key. */
  function CountOf(t: seq<Entry>, w: string): nat
    decreases |t|
  {
    if |t| == 0 then 0 else (if t[0].key == w then t[0].count else 0) + CountOf(t[1..], w)
  }

  /** The sum of all counters. */
  function Total(t: seq<Entry>): nat
    decreases |t|
  {
    if |t| == 0 then 0 else t[0].count + Total(t[1..])
  }

  lemma {:induction false} CountOfAbsent(t: seq<Entry>, w: string)
    requires forall i :: 0 <= i < |t| ==> t[i].key != w
    ensures CountOf(t, w) == 0
    decreases |t|
  {
    if |t| > 0 {
      CountOfAbsent(t[1..], w);
    }
  }

  /** One step of the counting loop: increment the counter of `w`, or add `w`
      with counter one at its place in key order. */
  function Insert(t: seq<Entry>, w: string): (r: seq<Entry>)
    ensures forall i :: 0 <= i < |r| ==> r[i].key == w || r[i] in t
    ensures forall k :: CountOf(r, k) == CountOf(t, k) + (if k == w then 1 else 0)
    ensures Total(r) == Total(t) + 1
    ensures Positive(t) ==> Positive(r)
    decreases |t|
  {
    if |t| == 0 then
      var r := [Entry(w, 1)];
      assert r[1..] == [];
      r
    else if t[0].key == w then
      var r := [Entry(w, t[0].count + 1)] + t[1..];
      assert r[1..] == t[1..];
      r
    else if Less(w, t[0].key) then
      var r := [Entry(w, 1)] + t;
      assert r[1..] == t;
      r
    else
      var rest := Insert(t[1..], w);
      var r := [t[0]] + rest;
      assert r[1..] == rest;
      r
  }

  /** Inserting into a dictionary with ascending keys keeps them ascending. */
  lemma {:induction false} InsertSorted(t: seq<Entry>, w: string)
    requires Sorted(t)
    ensures Sorted(Insert(t, w))
    decreases |t|
  {
    var r := Insert(t, w);
    if |t| > 0 && t[0].key == w {
      assert forall i :: 0 <= i < |r| ==> r[i].key == t[i].key;
    } else if |t| > 0 && Less(w, t[0].key) {
      InsertSortedFirst(t, w);
    } else if |t| > 0 {
      LessTotal(w, t[0].key);
      var tail := t[1..];
      assert Sorted(tail) by {
        forall i, j | 0 <= i < j < |tail|
          ensures Less(tail[i].key, tail[j].key)
        {
          assert tail[i] == t[i + 1] && tail[j] == t[j + 1];
        }
      }
      InsertSorted(tail, w);
      InsertSortedLater(t, w);
    }
  }

  /** A word below every key goes first. */
  lemma InsertSortedFirst(t: seq<Entry>, w: string)
    requires Sorted(t) && |t| > 0 && Less(w, t[0].key)
    ensures Sorted([Entry(w, 1)] + t)
  {
    var r := [Entry(w, 1)] + t;
    forall j | 0 <= j < |t|
      ensures Less(w, t[j].key)
    {
      if j > 0 {
        LessTransitive(w, t[0].key, t[j].key);
      }
    }
    forall i, j | 0 <= i < j < |r|
      ensures Less(r[i].key, r[j].key)
    {
      assert r[j] == t[j - 1];
      if i > 0 {
        assert r[i] == t[i - 1];
      }
    }
  }

  /** A word above the first key is inserted among the others. */
  lemma InsertSortedLater(t: seq<Entry>, w: string)
    requires Sorted(t) && |t| > 0 && Less(t[0].key, w)
    requires Sorted(Insert(t[1..], w))
    ensures Sorted([t[0]] + Insert(t[1..], w))
  {
    var tail := t[1..];
    var rest := Insert(tail, w);
    var r := [t[0]] + rest;
    forall i, j | 0 <= i < j < |r|
      ensures Less(r[i].key, r[j].key)
    {
      assert r[j] == rest[j - 1];
      if i > 0 {
        assert r[i] == rest[i - 1];
      } else if rest[j - 1].key != w {
        var k :| 0 <= k < |tail| && tail[k] == rest[j - 1];
        assert tail[k] == t[k + 1];
      }
    }
  }

  /** The dictionary after the counting loop has seen `words` in order. */
  function Tally(words: seq<string>): (r: seq<Entry>)
    ensures Positive(r)
    ensures forall k :: CountOf(r, k) == multiset(words)[k]
    ensures Total(r) == |words|
    ensures forall i :: 0 <= i < |r| ==> r[i].key in words
    decreases |words|
  {
    if |words| == 0 then []
    else
      var front := words[..|words| - 1];
      var w := words[|words| - 1];
      assert words == front + [w];
      var t := Tally(front);
      var r := Insert(t, w);
      forall i | 0 <= i < |r|
        ensures r[i].key in words
      {
        if r[i].key != w {
          var j :| 0 <= j < |t| && t[j] == r[i];
          assert t[j].key in front;
        }
      }
      r
  }

  /** The dictionary keeps its keys in ascending order, each once. */
  lemma {:induction false} TallySorted(words: seq<string>)
    ensures Sorted(Tally(words))
    decreases |words|
  {
    if |words| > 0 {
      var front := words[..|words| - 1];
      TallySorted(front);
      InsertSorted(Tally(front), words[|words| - 1]);
    }
  }

  /** Every key is a lower-cased counted word, so all spellings of a word
      that differ only in case share its counter. */
  lemma TallyKeys(text: string)
    ensures var t := Tally(Words(text));
      forall i :: 0 <= i < |t| ==> !IsBlank(t[i].key) && IsKey(t[i].key) && NoneIn(t[i].key, Separators)
  {
  }

  // ---------------------------------------------------------------------------
  // Rendering
  // ---------------------------------------------------------------------------

  /** One output line without its newline: the key, ` - `, the counter. */
  function ReportLine(e: Entry): string {
    e.key + " - " + NatToString(e.count)
  }

  function ReportLines(t: seq<Entry>): seq<string> {
    seq(|t|, i requires 0 <= i < |t| => ReportLine(t[i]))
  }

  /** The returned text: every line followed by a newline, in key order. */
  function Render(t: seq<Entry>): (r: string)
    ensures r == "" <==> |t| == 0
  {
    var lines := ReportLines(t);
    assert |t| > 0 ==> Lines(lines) == lines[0] + "\n" + Lines(lines[1..]);
    Lines(lines)
  }

  /** Reads a report line back: a key, a dash and a decimal counter, separated
      by single spaces. */
  function ReadEntry(line: string): Option<Entry> {
    var parts := Split(line, {' '});
    if |parts| == 3 && parts[1] == "-" && |parts[2]| > 0
       && forall i :: 0 <= i < |parts[2]| ==> IsDigit(parts[2][i])
    then Some(Entry(parts[0], DigitsValue(parts[2])))
    else None
  }

  lemma ReadReportLine(e: Entry)
    requires NoneIn(e.key, {' '})
    ensures ReadEntry(ReportLine(e)) == Some(e)
  {
    var digits := NatToString(e.count);
    assert NoneIn(digits, {' '});
    assert NoneIn("-", {' '});
    assert [e.key, "-", digits][1..] == ["-", digits];
    assert ["-", digits][1..] == [digits];
    assert JoinWith([digits], ' ') == digits;
    assert JoinWith(["-", digits], ' ') == "-" + " " + digits;
    assert JoinWith([e.key, "-", digits], ' ') == e.key + " " + ("-" + " " + digits);
    assert JoinWith([e.key, "-", digits], ' ') == ReportLine(e);
    JoinThenSplit([e.key, "-", digits], ' ');
    DecimalRoundTrip(e.count);
  }

  /** The report of a dictionary whose keys hold no space or newline has one
      line per entry, in order, each reading back as that entry, and ends
      with a newline. */
  lemma ReportRoundTrip(t: seq<Entry>)
    requires forall i :: 0 <= i < |t| ==> NoneIn(t[i].key, {' ', '\n'})
    ensures var lines := Split(Render(t), {'\n'});
      && |lines| == |t| + 1
      && lines[|t|] == ""
      && forall i :: 0 <= i < |t| ==> ReadEntry(lines[i]) == Some(t[i])
  {
    var lines := ReportLines(t);
    forall i | 0 <= i < |t|
      ensures NoneIn(lines[i], {'\n'}) && ReadEntry(lines[i]) == Some(t[i])
    {
      var digits := NatToString(t[i].count);
      assert NoneIn(digits, {'\n'});
      assert lines[i] == t[i].key + " - " + digits;
      ReadReportLine(t[i]);
    }
    SplitLines(lines);
  }

  // ---------------------------------------------------------------------------
  // The command
  // ---------------------------------------------------------------------------

  /** `CountWords` after the page text is extracted and decoded. */
  function CountWordsText(text: string): (r: string)
    ensures r == "" <==> |Words(text)| == 0
  {
    var t := Tally(Words(text));
    assert |Words(text)| == 0 ==> Total(t) == 0;
    assert |t| == 0 ==> Total(t) == 0;
    assert |Words(text)| > 0 ==> |t| > 0;
    Render(t)
  }

  /** The report for a text: one line per distinct word in ascending order,
      each reading back as the word and the number of its occurrences. */
  lemma CountWordsReport(text: string)
    ensures var t := Tally(Words(text));
      var lines := Split(CountWordsText(text), {'\n'});
      && |lines| == |t| + 1
      && lines[|t|] == ""
      && Sorted(t)
      && (forall i :: 0 <= i < |t| ==>
            && ReadEntry(lines[i]) == Some(t[i])
            && t[i].count == multiset(Words(text))[t[i].key] >= 1)
      && (forall w :: w in Words(text) ==> exists i :: 0 <= i < |t| && t[i].key == w)
  {
    var words := Words(text);
    var t := Tally(words);
    TallySorted(words);
    forall i | 0 <= i < |t|
      ensures NoneIn(t[i].key, {' ', '\n'}) && t[i].count == multiset(words)[t[i].key]
    {
      assert NoneIn(t[i].key, Separators);
      TallyEntry(t, i);
    }
    ReportRoundTrip(t);
    forall w | w in words
      ensures exists i :: 0 <= i < |t| && t[i].key == w
    {
      assert CountOf(t, w) > 0;
      CountOfPresent(t, w);
    }
  }

  lemma {:induction false} CountOfPresent(t: seq<Entry>, w: string)
    requires CountOf(t, w) > 0
    ensures exists i :: 0 <= i < |t| && t[i].key == w
    decreases |t|
  {
    if t[0].key != w {
      CountOfPresent(t[1..], w);
      var i :| 0 <= i < |t[1..]| && t[1..][i].key == w;
      assert t[i + 1].key == w;
    }
  }

  /** In a sorted dictionary the counter of a key is that of its entry. */
  lemma {:induction false} TallyEntry(t: seq<Entry>, i: nat)
    requires Sorted(t) && i < |t|
    ensures CountOf(t, t[i].key) == t[i].count
    decreases |t|
  {
    if i == 0 {
      forall j | 0 <= j < |t[1..]|
        ensures t[1..][j].key != t[0].key
      {
        assert Less(t[0].key, t[j + 1].key);
        if t[j + 1].key == t[0].key {
          LessIrreflexive(t[0].key);
        }
      }
      CountOfAbsent(t[1..], t[0].key);
    } else {
      TallyEntry(t[1..], i - 1);
      if t[0].key == t[i].key {
        LessIrreflexive(t[0].key);
      }
    }
  }

  /** The whole command, given the outcome of the page fetch, the document
      parser and the entity decoder: a failed fetch returns the error message;
      otherwise the words of the decoded viewable text are counted. */
  function CountWords(fetched: Result<string, string>, load: string -> Node,
                      decode: string -> string): (r: string)
    ensures fetched.Failure? ==> r == fetched.error
    ensures fetched.Success? ==> (r == "" <==> |Words(decode(ExtractViewableText(load(fetched.value))))| == 0)
  {
    match fetched
    case Failure(message) => message
    case Success(html) => CountWordsText(decode(ExtractViewableText(load(html))))
  }
}

=== FILE: wrappers.dfy ===
/** Option and Result: the shell's "value or absent" and "value or error" shapes. */
module Wrappers {

  datatype Option<+T> = None | Some(value: T)

  /** Either a value or an error; used wherever the source throws or returns an error. */
  datatype Result<+R, +E> = Success(value: R) | Failure(error: E) {

    predicate IsFailure() {
      Failure?
    }

    function PropagateFailure<U>(): Result<U, E>
      requires Failure?
    {
      Failure(error)
    }

    function Extract(): R
      requires Success?
    {
      value
    }
  }
}
